=== FILE: README.md ===
# Shiro session store on Redis: a Dafny model

This project models the session store of a renren-security application. The
store is a Shiro `SessionDAO` that keeps sessions in Redis. It covers three
classes and the Redis commands they issue.

- `RedisSessionDAO` (module `SessionDao`). It saves a session as the Java
  serialization of the session object, under the key `keyPrefix + id` in
  UTF-8, with a time to live of `expire` seconds. It reads a session back,
  swallowing every failure as "not found". It creates a session under a
  generated id. It enumerates the active sessions by a `keyPrefix*` key
  scan. Deleting a session validates the input and does nothing else.
- `SerializeUtils` (module `SerializeUtils`). These are the guards around
  Java object serialization. Null and empty inputs short-circuit, and every
  failure collapses to `null`. An optional string is written after the
  object with `writeChars`.
- `RedisUtils` (module `RedisUtils`). These are static helpers: `put`/`get`
  of fastjson text, `setnx` with optional TTL refresh, counters, lists,
  expiry, and the raw byte commands the session store uses.

Redis itself is modelled as an immutable map from byte-string keys to
entries (module `Redis`), with the commands as Redis 7.0 and later answer
them. Each entry holds a text or list value and an
optional time to live. Every command is a pure transition that returns its
reply and the new store, or a `Failure` when Redis answers with an error.
Several supporting modules are concrete rather than assumed:

- `Utf8`: UTF-8 for Java strings.
- `Decimal`: the decimal form Redis stores counters in.
- `Glob`: the KEYS pattern matcher.
- `Lists`: LRANGE index clamping and LREM's counted removal.
- `Objects`: the session and payload types.

Three collaborators are left abstract and become parameters.

- The Java object stream is `SerializeUtils.ObjectCodec`. Its round-trip law
  is the hypothesis `SerializeUtils.Lawful`: every stream starts with the
  stream header, and reading any extension of a written stream yields the
  object written.
- fastjson is `RedisUtils.Jvm.toJson`/`parseJson`, with the law
  `RedisUtils.JsonLawful`.
- Shiro's session id generator is the `newId` argument of
  `SessionDao.DoCreate`.

`SerializeUtils.IsEmpty` (`isEmpty`, SerializeUtils.java:52-54) is a
predicate. Its meaning is carried by `SerializeUtils.Deserialize`.

The doc comment of `put(key, value)` (RedisUtils.java:27) says "3h", but the
code uses `60 * 60` seconds. The model follows the code.

Some consequences of the code worth knowing:

- `doCreate` does not check whether the session already has an id. It
  overwrites the id.
- A non-Serializable payload makes `serialize` return null.
- `getActiveSessions` puts undecodable entries into the result as `null`,
  and distinct sessions that compare equal collapse. So its size need not
  be the number of keys.
- A session read back after a save carries the timeout it had before the
  save. The bytes are taken before `setTimeout` runs.
- The timeout `saveSession` sets is the `int` product `expire * 1000`,
  which wraps for large expiries (see "## Findings").

## Model

| member | source | states |
|---|---|---|
| SessionDao.DefaultConfig | src/main/java/io/renren/RedisSessionDAO.java:36-44 | the default prefix and the default expiry of 3600 s form a valid configuration with a positive expiry |
| SessionDao.ByteKey | src/main/java/io/renren/RedisSessionDAO.java:129-132 | every derived key begins with the UTF-8 bytes of the prefix and is at least as long as prefix plus id |
| SessionDao.ByteKeyInjective | src/main/java/io/renren/RedisSessionDAO.java:129-132 | for a fixed prefix, two ids give the same key exactly when they are the same id |
| SessionDao.SaveSession | src/main/java/io/renren/RedisSessionDAO.java:52-68 | a null session or id leaves session and store unchanged; otherwise the in-memory session gets the timeout `expire * 1000` as the code computes it, wrapped to an int, which is the true millisecond value whenever the expiry is within plus or minus 2147483 s; the store gets the serialization of the pre-save session under the derived key with TTL `expire`, and nothing else changes; a null serialization or a non-positive expiry is an error that leaves the store unchanged; well-formedness is kept |
| SessionDao.Update | src/main/java/io/renren/RedisSessionDAO.java:70-74 | update has exactly the effect of saveSession |
| SessionDao.Delete | src/main/java/io/renren/RedisSessionDAO.java:76-83 | the store is unchanged for every input, null or not |
| SessionDao.DeleteThenRead | src/main/java/io/renren/RedisSessionDAO.java:76-83 | reading after a delete gives what reading before it gave |
| SessionDao.DoReadSession | src/main/java/io/renren/RedisSessionDAO.java:108-121 | a null id, a missing key, or a key holding a list reads as null; a session is returned exactly when the text stored under the id's key decodes to a session, and it is that session; anything else reads as null |
| SessionDao.SaveThenRead | src/main/java/io/renren/RedisSessionDAO.java:58-64 | with a lawful codec and a positive expiry, a saved session reads back exactly as it was before the save changed its timeout |
| SessionDao.SaveKeepsOthers | src/main/java/io/renren/RedisSessionDAO.java:58-64 | saving one session never changes what another id reads |
| SessionDao.SaveKeepsOtherEntries | src/main/java/io/renren/RedisSessionDAO.java:58-64 | a save touches only its own session's key: every other id's entry is present after the save exactly when it was before, and unchanged |
| SessionDao.SessionExpires | src/main/java/io/renren/RedisSessionDAO.java:64 | a saved session reads back while fewer than `expire` seconds have passed, and reads as null afterwards |
| SessionDao.DoCreate | src/main/java/io/renren/RedisSessionDAO.java:99-106 | the returned id is the generated one and the session carries it; the save succeeds exactly when the session serializes and the expiry is positive, and then the id's key is in the store; no other key changes |
| SessionDao.CreateThenRead | src/main/java/io/renren/RedisSessionDAO.java:100-106 | reading the id doCreate returned gives the session with that id |
| SessionDao.ScanPattern | src/main/java/io/renren/RedisSessionDAO.java:89 | the scan pattern is the prefix's UTF-8 bytes followed by `*` |
| SessionDao.GetActiveSessions | src/main/java/io/renren/RedisSessionDAO.java:85-97 | no scanned keys gives the empty set; WRONGTYPE escapes exactly when a scanned key holds a list; when no list is scanned, the cast fails exactly when a scanned key decodes to a non-session object, and a successful result never comes from such a key; on success the result is exactly the set of decodings of the scanned keys, null included |
| SessionDao.ScanFindsPrefixed | src/main/java/io/renren/RedisSessionDAO.java:89 | with a prefix free of glob metacharacters, the scan visits exactly the keys that start with the prefix |
| SessionDao.NoActiveSessions | src/main/java/io/renren/RedisSessionDAO.java:86-97 | with a literal prefix, the result is the empty set exactly when no key starts with the prefix |
| SessionDao.SavedIsActive | src/main/java/io/renren/RedisSessionDAO.java:86-97 | a session just saved is among the active sessions whenever the scan succeeds |
| SessionDao.UndecodableIsNull | src/main/java/io/renren/RedisSessionDAO.java:91-93 | an entry under the prefix that does not decode adds null to the result |
| SessionDao.DefaultPrefixIsLiteral | src/main/java/io/renren/RedisSessionDAO.java:39 | the default prefix contains no glob metacharacter |
| SessionDao.LiteralPrefix | src/main/java/io/renren/RedisSessionDAO.java:89 | an ASCII prefix without `*`, `?`, `[` or `\` encodes to a literal glob pattern |
| SessionDao.Int32Wrap | src/main/java/io/renren/RedisSessionDAO.java:60 | the wrapped value is a Java int congruent to the input modulo 2^32, and an int is left as it is |
| SessionDao.TimeoutMillisAsWritten | src/main/java/io/renren/RedisSessionDAO.java:60 | the timeout as written is an int congruent to `expire * 1000` modulo 2^32 |
| SessionDao.TimeoutMillis | src/main/java/io/renren/RedisSessionDAO.java:60 | the intended timeout is exactly `expire` seconds in milliseconds, fits a long, and is positive exactly when `expire` is |
| SessionDao.TimeoutAgreement | src/main/java/io/renren/RedisSessionDAO.java:60 | the written and intended timeouts agree exactly when `expire` is within plus or minus 2147483 |
| SessionDao.TimeoutOverflowExample | src/main/java/io/renren/RedisSessionDAO.java:60 | an expiry of 2147484 s gives the timeout -2147483296 ms as written, against 2147484000 ms intended |
| SerializeUtils.Deserialize | src/main/java/io/renren/utils/SerializeUtils.java:21-50 | null or empty bytes give null; non-empty bytes give exactly what the stream reads from them, so every read failure is null |
| SerializeUtils.SerializeWith | src/main/java/io/renren/utils/SerializeUtils.java:73-101 | null gives empty bytes; a non-Serializable payload gives null; otherwise the result exists exactly when the stream writes, begins with the stream, and equals it exactly when the suffix is blank; with a lawful codec, deserializing the result gives the object back |
| SerializeUtils.Serialize | src/main/java/io/renren/utils/SerializeUtils.java:62-64 | serialize(o) is serialize(o, null), and its bytes are the stream alone |
| SerializeUtils.SerializeNull | src/main/java/io/renren/utils/SerializeUtils.java:77-79 | a null object serializes to empty bytes whatever the suffix, and those deserialize to null |
| SerializeUtils.SerializeRoundTrip | src/main/java/io/renren/utils/SerializeUtils.java:87-93 | with a lawful codec, a serializable object the stream can write serializes, and deserializes back to itself, with or without a suffix |
| SerializeUtils.SuffixRecoverable | src/main/java/io/renren/utils/SerializeUtils.java:89-91 | after the stream, the block-data records hold exactly the UTF-16 characters of a non-blank suffix |
| SerializeUtils.ReadBlocksOfBlocks | src/main/java/io/renren/utils/SerializeUtils.java:89-92 | block-data framing reads back to the bytes framed |
| SerializeUtils.ReadCharsOfCharBytes | src/main/java/io/renren/utils/SerializeUtils.java:90 | the big-endian UTF-16 that writeChars produces reads back to the string |
| RedisUtils.PutFor | src/main/java/io/renren/utils/RedisUtils.java:42-51 | the key holds the UTF-8 JSON text with TTL `seconds`, or is gone for a non-positive time; no other key changes |
| RedisUtils.Put | src/main/java/io/renren/utils/RedisUtils.java:32-34 | the value is stored with a TTL of 3600 s; no other key changes |
| RedisUtils.Get | src/main/java/io/renren/utils/RedisUtils.java:62-71 | a missing key or empty stored bytes give null; WRONGTYPE exactly for a list; non-empty text is parsed: a JSON syntax error escapes exactly when fastjson rejects the text, the text `null` gives null, and otherwise the parsed object is returned |
| RedisUtils.PutThenGet | src/main/java/io/renren/utils/RedisUtils.java:42-71 | with lawful fastjson, get after put with a positive time returns the value put, null included |
| RedisUtils.Remove | src/main/java/io/renren/utils/RedisUtils.java:79-82 | the key is gone, nothing else changes, and the answer is 1 exactly when it existed |
| RedisUtils.Ttl | src/main/java/io/renren/utils/RedisUtils.java:90-92 | -2 exactly for a missing key, -1 exactly for one without expiry, otherwise the seconds the key has left |
| RedisUtils.SetExpire | src/main/java/io/renren/utils/RedisUtils.java:97-100 | an existing key keeps its value and gets the new TTL; a non-positive time deletes it; no other key changes |
| RedisUtils.Exists | src/main/java/io/renren/utils/RedisUtils.java:161-164 | a key exists exactly when its TTL is not -2 |
| RedisUtils.RPush | src/main/java/io/renren/utils/RedisUtils.java:122-125 | no values is an error, a text key is WRONGTYPE, and the push succeeds in every other case: the list becomes the old list followed by the values and the answer is its new length |
| RedisUtils.LRange | src/main/java/io/renren/utils/RedisUtils.java:127-141 | a missing key gives the empty list, a text key is WRONGTYPE, and every other key succeeds with the strings of the clamped inclusive slice |
| RedisUtils.RPushThenLRange | src/main/java/io/renren/utils/RedisUtils.java:122-141 | pushing onto a fresh key and reading the range 0..-1 gives back the very strings pushed |
| RedisUtils.LRem | src/main/java/io/renren/utils/RedisUtils.java:143-153 | fails exactly for a text key (WRONGTYPE); count 0 removes all occurrences; a positive count clears the first `count` occurrences from the head and a negative count the last `-count` from the tail, leaving the rest of the list as it was; the answer is the number removed |
| RedisUtils.Counter | src/main/java/io/renren/utils/RedisUtils.java:166-187 | a counter is a 64-bit integer, and a missing key counts as 0 |
| RedisUtils.IncrBy | src/main/java/io/renren/utils/RedisUtils.java:177-187 | the answer is the old counter plus num and is what the key now holds; a non-integer value is an error; success is certain when the sum fits 64 bits; the TTL and the other keys are kept |
| RedisUtils.Incr | src/main/java/io/renren/utils/RedisUtils.java:166-175 | a missing key becomes 1; a key holding no counter fails; an existing counter below the 64-bit maximum succeeds and goes up by one; the TTL and every other key are kept |
| RedisUtils.DecrBy | src/main/java/io/renren/utils/RedisUtils.java:255-265 | the answer is the old counter minus num and is what the key now holds; the minimal long is refused; a non-integer value is an error |
| RedisUtils.Decr | src/main/java/io/renren/utils/RedisUtils.java:244-253 | a missing key becomes -1; a key holding no counter fails; an existing counter above the 64-bit minimum succeeds and goes down by one; the TTL and every other key are kept |
| RedisUtils.IncrThenDecrRestores | src/main/java/io/renren/utils/RedisUtils.java:184-187 | for a key that already exists, incrBy n followed by decrBy n answers the old counter and restores the store exactly (a fresh key is left holding 0) |
| RedisUtils.SetNx | src/main/java/io/renren/utils/RedisUtils.java:222-242 | answers 1 exactly when the key was absent; an existing value is never overwritten; the TTL is applied exactly when the write happened or refresh is on; with refresh off an existing key is untouched; nothing else changes |
| RedisUtils.SetNxKeepsFirst | src/main/java/io/renren/utils/RedisUtils.java:231-241 | with refresh off, a second setnx answers 0 and changes nothing |
| RedisUtils.SetNxFor | src/main/java/io/renren/utils/RedisUtils.java:211-220 | the three-argument form always applies the TTL, so the key ends with it, or is gone for a non-positive time |
| RedisUtils.SetNxDefault | src/main/java/io/renren/utils/RedisUtils.java:201-209 | the two-argument form leaves the key with a TTL of 3600 s |
| RedisUtils.GetBytes | src/main/java/io/renren/utils/RedisUtils.java:269-277 | null for a missing key, WRONGTYPE exactly for a list, and for a text key exactly the stored bytes |
| RedisUtils.SetBytes | src/main/java/io/renren/utils/RedisUtils.java:279-292 | answers the very value given; the key holds it with TTL `seconds`, or is gone for a non-positive time; a null value is refused |
| RedisUtils.SetThenGetBytes | src/main/java/io/renren/utils/RedisUtils.java:275-292 | get after set with a positive time gives the bytes back |
| RedisUtils.DelBytes | src/main/java/io/renren/utils/RedisUtils.java:294-302 | the key is gone, nothing else changes, and the answer is 1 when it existed and 0 when it did not |
| RedisUtils.KeysMatching | src/main/java/io/renren/utils/RedisUtils.java:304-313 | exactly the stored keys that the UTF-8 pattern matches |
| Lists.LRangeSlice | src/main/java/io/renren/utils/RedisUtils.java:127-141 | in-range non-negative or negative bounds give the inclusive slice; end -1 runs through the last element |
| Lists.LRemListSpec | src/main/java/io/renren/utils/RedisUtils.java:143-153 | the number removed is every occurrence for count 0 and at most the absolute value of count otherwise; the non-matching elements keep their order |
| Lists.LRemDirection | src/main/java/io/renren/utils/RedisUtils.java:143-153 | count 0 leaves the list without the value; a positive count clears the first `count` occurrences (all, if fewer) from some prefix and keeps the remainder unchanged; a negative count does the same from the tail |
| Lists.RemoveFromHead | src/main/java/io/renren/utils/RedisUtils.java:143-153 | a head-first removal of up to n occurrences equals the list with some prefix cleared of exactly min(n, count) occurrences, the remainder untouched |
| Lists.RemoveFromTail | src/main/java/io/renren/utils/RedisUtils.java:143-153 | the tail-first removal clears exactly min(n, count) occurrences from some suffix and leaves the front untouched |
| Lists.LRemScan | src/main/java/io/renren/utils/RedisUtils.java:143-153 | Redis' loop that scans from the head or the tail computes exactly the functional removal |
| Lists.RemoveScan | src/main/java/io/renren/utils/RedisUtils.java:143-153 | the scan deletes matches while the budget lasts and keeps everything else: exactly the functional head-first removal, and it reports how many it deleted |
| Lists.LRemFromTailExample | src/main/java/io/renren/utils/RedisUtils.java:144 | count -1 on [x, y, x] removes the last x |
| Glob.PrefixScan | src/main/java/io/renren/RedisSessionDAO.java:89 | for a prefix free of metacharacters, `prefix*` matches a key exactly when the key starts with the prefix |
| Glob.MetaPrefixWidensScan | src/main/java/io/renren/RedisSessionDAO.java:89 | a `?` in the prefix makes the scan match keys that do not start with the prefix |
| Utf8.DecodeEncode | src/main/java/io/renren/utils/RedisUtils.java:68 | decoding the UTF-8 of a string gives the string back |
| Utf8.EncodeDecode | src/main/java/io/renren/utils/RedisUtils.java:68 | well-formed UTF-8 re-encodes to the same bytes |
| Utf8.EncodeInjective | src/main/java/io/renren/RedisSessionDAO.java:131 | distinct strings have distinct UTF-8 bytes |
| Decimal.FormatParse | src/main/java/io/renren/utils/RedisUtils.java:184-187 | a 64-bit counter written as decimal text parses back to itself |
| Decimal.ParseFormat | src/main/java/io/renren/utils/RedisUtils.java:184-187 | text that parses as a counter is the canonical decimal of its value |
| Redis.SetEx | src/main/java/io/renren/RedisSessionDAO.java:64 | a non-positive expiry is refused; otherwise the key holds the value with that TTL and nothing else changes |
| Redis.IncrBy | src/main/java/io/renren/utils/RedisUtils.java:186 | a list is WRONGTYPE and unparsable text NOT-AN-INTEGER; on a counter (or a missing key) it succeeds exactly when the sum fits 64 bits and is an overflow error otherwise; the answer is the old value plus delta within 64 bits, stored as decimal text with the TTL kept |
| Redis.Tick | src/main/java/io/renren/RedisSessionDAO.java:64 | after `dt` seconds exactly the entries with more time left survive, each counted down |

## Left out

- The Java object-stream format is not modelled. It is a parameter with a
  round-trip hypothesis (`SerializeUtils.Lawful`). Only the block-data
  framing of the `writeChars` suffix is concrete.
- fastjson's text format is not modelled. It is a parameter with the law
  `RedisUtils.JsonLawful`. The `Class<T>` argument of `get` is the type
  parameter `V`.
- The JVM's replacement decoding of malformed UTF-8 is the parameter
  `Jvm.decodeMalformed`, because its output depends on the JDK.
- Java strings holding unpaired surrogates are not modelled. A Dafny `char`
  is a Unicode scalar value.
- `SerializeUtils.IsBlank`: Java 8's `Character.isWhitespace` is used, so
  U+180E is whitespace, as it is in Unicode 6.2.
- Null keys, a null `Integer seconds`, a null `Boolean refreshExpireTime` and
  a null `keyPrefix` are not modelled. Each throws or stringifies inside
  Java code outside this model. Sessions, ids and values may be null.
- A null value array or a null element in `rpush`, and a null `value` in
  `lrem`, are not modelled. The client's `encodeMany`/`encode` throws on
  them before any command is sent, and the model's strings cannot be null.
- `SessionDao.DoCreate`: a null session is not modelled. It fails inside
  Shiro's `assignSessionId`, which is not part of this model.
- `SessionDao.GetActiveSessions`: when a list and a non-session object are
  both under the prefix, the model reports WRONGTYPE. Java's error depends
  on hash-set iteration order.
- `SessionDao.GetActiveSessions`: sessions are collected by structural
  equality. Shiro's `SimpleSession.equals`, which compares ids, is not part
  of this model.
- Ids are strings. The key uses the id's `toString`, so non-string ids are
  covered only through their string form.
- `incrByFloat` is left out because it is floating point.
- `hput`, `hremove`, `flushDB`, `dbSize` and `execute` are left out. They are
  pass-throughs outside the session store.
- The getters and setters of `keyPrefix` and `expire` are left out. The
  configuration is the `Config` parameter.
- Logging, the Spring template and connection plumbing, pipelines and
  transactions are left out. In a pipeline, `setNX` answers null.
- Concurrency is left out. `put`, `set` and `setnx` send two separate
  commands, and the model runs them back to back.
- Redis servers older than 7.0 are not modelled. There, DECRBY accepts the
  most negative 64-bit delta, which `Redis.DecrBy` refuses.
- Time passes only through `Redis.Tick`, in whole seconds. Redis's
  millisecond clock and lazy expiry are not modelled.
- The KEYS matcher's nesting limit on `*` and its case-insensitive mode are
  not modelled. Neither is reachable from these helpers with ordinary
  prefixes.

## Findings

| source | as written | input that shows it | evidently intended | confidence | as-written member | corrected member |
|---|---|---|---|---|---|---|
| src/main/java/io/renren/RedisSessionDAO.java:60 | `session.setTimeout(expire * 1000)` multiplies two `int`s, so the product wraps before it is widened to `long` | `expire = 2147484` (under 25 days) gives a timeout of -2147483296 ms, which Shiro treats as a session that never times out | the timeout `expire` seconds in milliseconds, computed as a `long` (`expire * 1000L`) | medium; not executed | SessionDao.TimeoutMillisAsWritten | SessionDao.TimeoutMillis |

`SessionDao.TimeoutOverflowExample` exhibits the input. `SessionDao.TimeoutAgreement`
proves that the two definitions agree exactly for `expire` within plus or
minus 2147483. `SessionDao.SaveSession` keeps the code's wrapped value, and its contract
states that this is the corrected `TimeoutMillis` whenever the two agree.

=== FILE: decimal.dfy ===
/** The decimal text Redis keeps in a counter: `ll2string` writes it and
    `string2ll` reads it back (Redis util.c). INCR, INCRBY, DECR and DECRBY
    accept a stored value only if `string2ll` does.

    The two are inverse on the signed 64-bit range. `ParseFormat` and
    `FormatParse` prove both directions, so the accepted texts are exactly
    the canonical ones: no '+', no leading zeros, no "-0", no blanks. */
module Decimal {
  import opened Outcomes

  const Minus: byte := 0x2D   // '-'
  const Zero: byte := 0x30    // '0'

  /** `string2ll` refuses any text of this length or longer. */
  const LongStrSize: nat := 21

  predicate IsDigit(b: byte) {
    0x30 <= b <= 0x39
  }

  predicate AllDigits(d: seq<byte>) {
    forall i :: 0 <= i < |d| ==> IsDigit(d[i])
  }

  /** The decimal digits of `n`, most significant first, without leading zeros. */
  function Digits(n: nat): (r: seq<byte>)
    ensures |r| > 0 && AllDigits(r)
    ensures n > 0 ==> r[0] != Zero
  {
    if n < 10 then [Zero + n] else Digits(n / 10) + [Zero + n % 10]
  }

  /** `ll2string`: an optional '-' followed by the digits of the magnitude. */
  function Format(n: int): seq<byte> {
    if n < 0 then [Minus] + Digits(-n) else Digits(n)
  }

  /** The number a digit string denotes. */
  function ValueOf(d: seq<byte>): nat
    requires AllDigits(d)
  {
    if |d| == 0 then 0 else ValueOf(d[..|d| - 1]) * 10 + (d[|d| - 1] - Zero)
  }

  /** `string2ll`: "0" alone, or an optional '-' then a digit 1-9 then digits,
      whose value lies in the signed 64-bit range. */
  function Parse(s: seq<byte>): Option<int> {
    if |s| == 0 || |s| >= LongStrSize then None
    else if s == [Zero] then Some(0)
    else
      var negative := s[0] == Minus;
      var d := if negative then s[1..] else s;
      if |d| == 0 || !(0x31 <= d[0] <= 0x39) || !AllDigits(d) then None
      else
        var v: int := ValueOf(d);
        if negative then (if v <= 0x8000_0000_0000_0000 then Some(-v) else None)
        else (if v < 0x8000_0000_0000_0000 then Some(v) else None)
  }

  function Pow10(k: nat): nat {
    if k == 0 then 1 else 10 * Pow10(k - 1)
  }

  lemma {:induction false} ValueOfDigits(n: nat)
    ensures ValueOf(Digits(n)) == n
  {
    if n >= 10 {
      var d := Digits(n);
      assert d[..|d| - 1] == Digits(n / 10);
      ValueOfDigits(n / 10);
    }
  }

  lemma {:induction false} DigitsLength(n: nat, k: nat)
    requires k >= 1 && n < Pow10(k)
    ensures |Digits(n)| <= k
  {
    if n >= 10 {
      DigitsLength(n / 10, k - 1);
    }
  }

  lemma {:induction false} ValueOfLeading(d: seq<byte>)
    requires |d| > 0 && AllDigits(d) && d[0] != Zero
    ensures ValueOf(d) >= 1
    decreases |d|
  {
    if |d| > 1 {
      ValueOfLeading(d[..|d| - 1]);
    }
  }

  /** A digit string without leading zeros is the rendering of its value. */
  lemma {:induction false} DigitsOfValue(d: seq<byte>)
    requires |d| > 0 && AllDigits(d) && (|d| == 1 || d[0] != Zero)
    ensures Digits(ValueOf(d)) == d
    decreases |d|
  {
    if |d| > 1 {
      var init := d[..|d| - 1];
      DigitsOfValue(init);
      ValueOfLeading(init);
      var v := ValueOf(d);
      assert v / 10 == ValueOf(init) && v % 10 == d[|d| - 1] - Zero;
      assert d == init + [d[|d| - 1]];
    }
  }

  /** Every signed 64-bit value survives a write and a read. */
  lemma FormatParse(n: int)
    requires InInt64(n)
    ensures Parse(Format(n)) == Some(n)
  {
    var m := if n < 0 then -n else n;
    assert Pow10(1) == 10;
    assert Pow10(2) == 100;
    assert Pow10(3) == 1000;
    assert Pow10(4) == 10000;
    assert Pow10(5) == 100000;
    assert Pow10(6) == 1000000;
    assert Pow10(7) == 10000000;
    assert Pow10(8) == 100000000;
    assert Pow10(9) == 1000000000;
    assert Pow10(10) == 10000000000;
    assert Pow10(11) == 100000000000;
    assert Pow10(12) == 1000000000000;
    assert Pow10(13) == 10000000000000;
    assert Pow10(14) == 100000000000000;
    assert Pow10(15) == 1000000000000000;
    assert Pow10(16) == 10000000000000000;
    assert Pow10(17) == 100000000000000000;
    assert Pow10(18) == 1000000000000000000;
    assert Pow10(19) == 10000000000000000000;
    DigitsLength(m, 19);
    ValueOfDigits(m);
    if n < 0 {
      assert Format(n)[1..] == Digits(m);
    }
  }

  /** Whatever `string2ll` accepts is the canonical rendering of its value,
      and that value is a signed 64-bit integer. */
  lemma ParseFormat(s: seq<byte>)
    requires Parse(s).Some?
    ensures InInt64(Parse(s).value) && Format(Parse(s).value) == s
  {
    if s != [Zero] {
      var negative := s[0] == Minus;
      var d := if negative then s[1..] else s;
      DigitsOfValue(d);
      ValueOfLeading(d);
      if negative {
        assert s == [Minus] + d;
      }
    }
  }

  /** Two texts a counter accepts are equal exactly when their values are. */
  lemma ParseInjective(a: seq<byte>, b: seq<byte>)
    requires Parse(a).Some? && Parse(b).Some?
    ensures Parse(a) == Parse(b) <==> a == b
  {
    ParseFormat(a);
    ParseFormat(b);
  }
}

=== FILE: glob.dfy ===
/** The glob matcher behind Redis' KEYS command (`stringmatchlen` in Redis
    util.c, case-sensitive), on byte strings.

    Pattern language: `*` any run of bytes, `?` any one byte, `[...]` a
    class (with `^` negation, `a-z` ranges and `\` escapes), `\x` the byte
    `x` literally. The quirks of the C code are kept: a class left open runs
    to the end of the pattern, range bounds compare as signed `char`s, and
    a pattern cannot match the empty key except through KEYS' own shortcut
    for the pattern "*" (`KeyMatches`).

    `PrefixScan` is what the session store relies on: for a prefix free of
    metacharacters, `prefix*` selects exactly the keys that start with it. */
module Glob {
  import opened Outcomes

  const Star: byte := 0x2A       // '*'
  const Question: byte := 0x3F   // '?'
  const Open: byte := 0x5B       // '['
  const Close: byte := 0x5D      // ']'
  const Escape: byte := 0x5C     // '\'
  const Caret: byte := 0x5E      // '^'
  const Dash: byte := 0x2D       // '-'
  const Nul: byte := 0x00

  predicate IsMeta(b: byte) {
    b == Star || b == Question || b == Open || b == Escape
  }

  /** A pattern made of literal bytes only. */
  predicate NoMeta(p: seq<byte>) {
    forall i :: 0 <= i < |p| ==> !IsMeta(p[i])
  }

  /** A C `char` holding `b`: bytes from 0x80 up are negative. */
  function Signed(b: byte): int {
    if b < 0x80 then b else b - 0x100
  }

  predicate AllStars(p: seq<byte>) {
    forall i :: 0 <= i < |p| ==> p[i] == Star
  }

  /** `p` without its leading stars. */
  function DropStars(p: seq<byte>): (r: seq<byte>)
    ensures |r| <= |p| && (|r| == 0 <==> AllStars(p))
    ensures |r| > 0 ==> r[0] != Star
  {
    if |p| > 0 && p[0] == Star then DropStars(p[1..]) else p
  }

  /** Scans the body of a class (after `[` and an optional `^`) against the
      byte `c`. Returns whether some member matched and the pattern left
      after the closing `]`; an unclosed class consumes the rest. */
  function ClassScan(q: seq<byte>, c: byte, matched: bool): (r: (bool, seq<byte>))
    ensures |r.1| <= |q|
    decreases |q|
  {
    if |q| >= 2 && q[0] == Escape then ClassScan(q[2..], c, matched || q[1] == c)
    else if |q| == 0 then (matched, [])
    else if q[0] == Close then (matched, q[1..])
    else if |q| >= 3 && q[1] == Dash then
      var lo := if Signed(q[0]) <= Signed(q[2]) then Signed(q[0]) else Signed(q[2]);
      var hi := if Signed(q[0]) <= Signed(q[2]) then Signed(q[2]) else Signed(q[0]);
      ClassScan(q[3..], c, matched || (lo <= Signed(c) <= hi))
    else ClassScan(q[1..], c, matched || q[0] == c)
  }

  /** One non-star pattern element against the first byte of `s`: `None` on
      mismatch, otherwise the pattern that is left. */
  function Element(p: seq<byte>, c: byte): (r: Option<seq<byte>>)
    requires |p| > 0 && p[0] != Star
    ensures r.Some? ==> |r.value| < |p|
  {
    if p[0] == Question then Some(p[1..])
    else if p[0] == Open then
      var q := p[1..];
      var negated := |q| > 0 && q[0] == Caret;
      var (hit, rest) := ClassScan(if negated then q[1..] else q, c, false);
      if hit != negated then Some(rest) else None
    else if p[0] == Escape && |p| >= 2 then
      if p[1] == c then Some(p[2..]) else None
    else if p[0] == c then Some(p[1..])
    else None
  }

  /** `stringmatchlen(p, s)` with case folding off. */
  function Match(p: seq<byte>, s: seq<byte>): bool
    decreases |p| + |s|, 0
  {
    if |p| == 0 || |s| == 0 then |p| == 0 && |s| == 0
    else if p[0] == Star then
      var r := DropStars(p);
      |r| == 0 || MatchSomeSuffix(r, s)
    else
      match Element(p, s[0])
      case None => false
      case Some(p') =>
        if |s| == 1 then AllStars(p') else Match(p', s[1..])
  }

  /** Some non-empty suffix of `s` matches `p`: the loop of the `*` case. */
  function MatchSomeSuffix(p: seq<byte>, s: seq<byte>): bool
    decreases |p| + |s|, 1
  {
    |s| > 0 && (Match(p, s) || MatchSomeSuffix(p, s[1..]))
  }

  /** KEYS' test for one key: the pattern "*" (a star followed by the
      terminating NUL) takes every key, anything else goes to the matcher. */
  predicate KeyMatches(pattern: seq<byte>, key: seq<byte>) {
    (|pattern| >= 1 && pattern[0] == Star && (|pattern| == 1 || pattern[1] == Nul))
    || Match(pattern, key)
  }

  lemma {:induction false} PrefixStarMatch(prefix: seq<byte>, key: seq<byte>)
    requires NoMeta(prefix) && |key| > 0
    ensures Match(prefix + [Star], key) <==> IsPrefix(prefix, key)
    decreases |prefix|
  {
    var p := prefix + [Star];
    if |prefix| == 0 {
      assert DropStars(p) == [];
    } else {
      assert p[0] == prefix[0] && !IsMeta(prefix[0]);
      if prefix[0] == key[0] {
        var p' := prefix[1..] + [Star];
        assert p[1..] == p';
        assert Element(p, key[0]) == Some(p');
        if |key| == 1 {
          assert AllStars(p') <==> |prefix[1..]| == 0 by {
            if |prefix[1..]| > 0 {
              assert p'[0] == prefix[1] && !IsMeta(prefix[1]);
            }
          }
        } else {
          PrefixStarMatch(prefix[1..], key[1..]);
          assert IsPrefix(prefix, key) <==> IsPrefix(prefix[1..], key[1..]);
        }
      }
    }
  }

  /** Scanning `prefix*` for a literal prefix selects exactly the keys that
      begin with `prefix`, the empty key included when the prefix is empty. */
  lemma PrefixScan(prefix: seq<byte>, key: seq<byte>)
    requires NoMeta(prefix)
    ensures KeyMatches(prefix + [Star], key) <==> IsPrefix(prefix, key)
  {
    var p := prefix + [Star];
    if |prefix| > 0 {
      assert p[0] == prefix[0] && !IsMeta(prefix[0]);
    }
    if |key| > 0 {
      PrefixStarMatch(prefix, key);
    }
  }

  /** A metacharacter in the prefix widens the scan: "a?*" also selects "ab". */
  lemma MetaPrefixWidensScan()
    ensures var prefix: seq<byte> := [0x61, Question];
            var key: seq<byte> := [0x61, 0x62];
            KeyMatches(prefix + [Star], key) && !IsPrefix(prefix, key)
  {
    var p: seq<byte> := [0x61, Question, Star];
    assert [0x61, Question] + [Star] == p;
    var key: seq<byte> := [0x61, 0x62];
    assert Element(p, 0x61) == Some(p[1..]);
    assert Element(p[1..], 0x62) == Some(p[2..]);
    assert AllStars(p[2..]);
  }
}

=== FILE: lists.dfy ===
/** The list commands the helpers pass through to Redis: LRANGE's index
    normalisation and LREM's counted removal (Redis t_list.c).

    `RemoveMatches` is the functional definition of a head-first removal;
    `LRemScan` is Redis' iterator loop, proved to compute the same list. */
module Lists {
  import opened Outcomes

  function Count<T(==)>(l: seq<T>, v: T): nat {
    if |l| == 0 then 0 else (if l[0] == v then 1 else 0) + Count(l[1..], v)
  }

  /** `l` with every occurrence of `v` left out. */
  function Without<T(==)>(l: seq<T>, v: T): seq<T> {
    if |l| == 0 then [] else (if l[0] == v then [] else [l[0]]) + Without(l[1..], v)
  }

  function Reverse<T>(l: seq<T>): (r: seq<T>)
    ensures |r| == |l|
  {
    if |l| == 0 then [] else Reverse(l[1..]) + [l[0]]
  }

  /** Removal budget: `None` removes every match. */
  function Spend(limit: Option<nat>): Option<nat>
    requires limit != Some(0)
  {
    match limit
    case None => None
    case Some(n) => Some(n - 1)
  }

  /** Removes occurrences of `v` from the head onwards until `limit` of them
      are gone. */
  function RemoveMatches<T(==)>(l: seq<T>, v: T, limit: Option<nat>): seq<T> {
    if |l| == 0 then []
    else if l[0] == v && limit != Some(0) then RemoveMatches(l[1..], v, Spend(limit))
    else [l[0]] + RemoveMatches(l[1..], v, limit)
  }

  function Min(a: nat, b: nat): nat {
    if a <= b then a else b
  }

  /** How many occurrences a removal with `limit` takes out of `l`. */
  function Removable<T(==)>(l: seq<T>, v: T, limit: Option<nat>): nat {
    match limit
    case None => Count(l, v)
    case Some(n) => Min(n, Count(l, v))
  }

  /** LREM's list: count 0 removes every match, a positive count removes up
      to count matches from the head, a negative one up to -count from the
      tail. */
  function LRemList<T(==)>(l: seq<T>, v: T, count: int): seq<T> {
    if count == 0 then RemoveMatches(l, v, None)
    else if count > 0 then RemoveMatches(l, v, Some(count))
    else Reverse(RemoveMatches(Reverse(l), v, Some(-count)))
  }

  /** LRANGE: negative indices count from the tail (-1 is the last element),
      `end` is inclusive, and out-of-range bounds are clamped. */
  function LRangeSlice<T>(l: seq<T>, start: int, end: int): (r: seq<T>)
    ensures |r| <= |l|
    ensures 0 <= start <= end < |l| ==> r == l[start..end + 1]
    ensures -|l| <= start <= end < 0 ==> r == l[|l| + start..|l| + end + 1]
    ensures 0 <= start <= |l| && end == -1 ==> r == l[start..]
  {
    var len := |l|;
    var s := if start < 0 then len + start else start;
    var e := if end < 0 then len + end else end;
    var s' := if s < 0 then 0 else s;
    if s' > e || s' >= len then []
    else
      var e' := if e >= len then len - 1 else e;
      l[s'..e' + 1]
  }

  lemma LRangeWhole<T>(l: seq<T>)
    ensures LRangeSlice(l, 0, -1) == l
  {
  }

  lemma {:induction false} CountAppend<T>(a: seq<T>, b: seq<T>, v: T)
    ensures Count(a + b, v) == Count(a, v) + Count(b, v)
  {
    if |a| > 0 {
      assert (a + b)[1..] == a[1..] + b;
      CountAppend(a[1..], b, v);
    } else {
      assert a + b == b;
    }
  }

  lemma {:induction false} WithoutAppend<T>(a: seq<T>, b: seq<T>, v: T)
    ensures Without(a + b, v) == Without(a, v) + Without(b, v)
  {
    if |a| > 0 {
      assert (a + b)[1..] == a[1..] + b;
      WithoutAppend(a[1..], b, v);
    } else {
      assert a + b == b;
    }
  }

  lemma {:induction false} ReverseAppend<T>(a: seq<T>, b: seq<T>)
    ensures Reverse(a + b) == Reverse(b) + Reverse(a)
  {
    if |a| > 0 {
      assert (a + b)[1..] == a[1..] + b;
      ReverseAppend(a[1..], b);
    } else {
      assert a + b == b;
    }
  }

  lemma {:induction false} ReverseReverse<T>(l: seq<T>)
    ensures Reverse(Reverse(l)) == l
  {
    if |l| > 0 {
      ReverseAppend(Reverse(l[1..]), [l[0]]);
      ReverseReverse(l[1..]);
      assert Reverse([l[0]]) == [l[0]];
    }
  }

  lemma {:induction false} CountReverse<T>(l: seq<T>, v: T)
    ensures Count(Reverse(l), v) == Count(l, v)
  {
    if |l| > 0 {
      CountAppend(Reverse(l[1..]), [l[0]], v);
      CountReverse(l[1..], v);
    }
  }

  lemma {:induction false} WithoutReverse<T>(l: seq<T>, v: T)
    ensures Without(Reverse(l), v) == Reverse(Without(l, v))
  {
    if |l| > 0 {
      WithoutAppend(Reverse(l[1..]), [l[0]], v);
      WithoutReverse(l[1..], v);
      var head := if l[0] == v then [] else [l[0]];
      assert Without([l[0]], v) == head;
      ReverseAppend(head, Without(l[1..], v));
      assert Reverse(head) == head;
    }
  }

  /** A head-first removal takes out exactly the removable occurrences,
      keeps every other element in its order, and leaves the surplus
      occurrences in place. */
  lemma {:induction false} RemoveMatchesSpec<T>(l: seq<T>, v: T, limit: Option<nat>)
    ensures var r := RemoveMatches(l, v, limit);
            && |l| - |r| == Removable(l, v, limit)
            && Without(r, v) == Without(l, v)
            && Count(r, v) == Count(l, v) - Removable(l, v, limit)
  {
    if |l| > 0 {
      if l[0] == v && limit != Some(0) {
        RemoveMatchesSpec(l[1..], v, Spend(limit));
      } else {
        RemoveMatchesSpec(l[1..], v, limit);
        var r := RemoveMatches(l, v, limit);
        assert r[1..] == RemoveMatches(l[1..], v, limit);
      }
    }
  }

  /** With no limit, every occurrence goes. */
  lemma {:induction false} RemoveAll<T>(l: seq<T>, v: T)
    ensures RemoveMatches(l, v, None) == Without(l, v)
  {
    if |l| > 0 {
      RemoveAll(l[1..], v);
    }
  }

  /** With the budget spent, nothing goes. */
  lemma {:induction false} RemoveNothing<T>(l: seq<T>, v: T)
    ensures RemoveMatches(l, v, Some(0)) == l
  {
    if |l| > 0 {
      RemoveNothing(l[1..], v);
      assert [l[0]] + l[1..] == l;
    }
  }

  /** A head-first removal of up to `n` occurrences clears them from some
      prefix of the list and leaves the rest of the list as it was. */
  lemma {:induction false} RemoveFromHead<T>(l: seq<T>, v: T, n: nat) returns (i: nat)
    ensures i <= |l|
    ensures Count(l[..i], v) == Min(n, Count(l, v))
    ensures RemoveMatches(l, v, Some(n)) == Without(l[..i], v) + l[i..]
  {
    if |l| == 0 {
      i := 0;
    } else if n == 0 {
      RemoveNothing(l, v);
      i := 0;
    } else {
      var j;
      if l[0] == v {
        j := RemoveFromHead(l[1..], v, n - 1);
      } else {
        j := RemoveFromHead(l[1..], v, n);
      }
      i := j + 1;
      assert l[..i][1..] == l[1..][..j];
      assert l[i..] == l[1..][j..];
    }
  }

  /** The mirror image: a tail-first removal of up to `n` occurrences clears
      them from some suffix and leaves the front of the list as it was. */
  lemma {:induction false} RemoveFromTail<T>(l: seq<T>, v: T, n: nat) returns (j: nat)
    ensures j <= |l|
    ensures Count(l[j..], v) == Min(n, Count(l, v))
    ensures Reverse(RemoveMatches(Reverse(l), v, Some(n))) == l[..j] + Without(l[j..], v)
  {
    var rl := Reverse(l);
    var i := RemoveFromHead(rl, v, n);
    j := |l| - i;
    assert l == l[..j] + l[j..];
    ReverseAppend(l[..j], l[j..]);
    assert rl[..i] == Reverse(l[j..]) && rl[i..] == Reverse(l[..j]);
    CountReverse(l, v);
    CountReverse(l[j..], v);
    ReverseAppend(Without(rl[..i], v), rl[i..]);
    WithoutReverse(l[j..], v);
    ReverseReverse(Without(l[j..], v));
    ReverseReverse(l[..j]);
  }

  /** `r` is `l` with the first `n` occurrences of `v` (or all, if fewer)
      taken out: some prefix loses all its occurrences, the rest stays. */
  ghost predicate ClearedFromHead<T>(l: seq<T>, v: T, n: nat, r: seq<T>) {
    exists i :: 0 <= i <= |l| && Count(l[..i], v) == Min(n, Count(l, v)) && r == Without(l[..i], v) + l[i..]
  }

  /** The mirror image: the last `n` occurrences go, from some suffix. */
  ghost predicate ClearedFromTail<T>(l: seq<T>, v: T, n: nat, r: seq<T>) {
    exists j :: 0 <= j <= |l| && Count(l[j..], v) == Min(n, Count(l, v)) && r == l[..j] + Without(l[j..], v)
  }

  /** Where LREM removes from: every occurrence for count 0, the first
      `count` for a positive count, the last `-count` for a negative one. */
  lemma {:induction false} LRemDirection<T>(l: seq<T>, v: T, count: int)
    ensures var r := LRemList(l, v, count);
            && (count == 0 ==> r == Without(l, v))
            && (count > 0 ==> ClearedFromHead(l, v, count, r))
            && (count < 0 ==> ClearedFromTail(l, v, -count, r))
  {
    if count == 0 {
      RemoveAll(l, v);
    } else if count > 0 {
      var i := RemoveFromHead(l, v, count);
      assert LRemList(l, v, count) == Without(l[..i], v) + l[i..];
    } else {
      var j := RemoveFromTail(l, v, -count);
      assert LRemList(l, v, count) == l[..j] + Without(l[j..], v);
    }
  }

  /** LREM's contract: the number it reports is the number of occurrences
      removed (all of them for count 0, at most |count| otherwise), every
      other element survives in its original order, and only occurrences
      of `v` disappear. */
  lemma LRemListSpec<T>(l: seq<T>, v: T, count: int)
    ensures var r := LRemList(l, v, count);
            var removed := |l| - |r|;
            && (count == 0 ==> removed == Count(l, v) && Count(r, v) == 0)
            && (count != 0 ==> removed == Min(if count > 0 then count else -count, Count(l, v)))
            && Without(r, v) == Without(l, v)
            && Count(r, v) == Count(l, v) - removed
  {
    if count >= 0 {
      RemoveMatchesSpec(l, v, if count == 0 then None else Some(count));
    } else {
      var rl := Reverse(l);
      var m := RemoveMatches(rl, v, Some(-count));
      RemoveMatchesSpec(rl, v, Some(-count));
      CountReverse(l, v);
      CountReverse(m, v);
      WithoutReverse(m, v);
      WithoutReverse(l, v);
      ReverseReverse(Without(l, v));
      ReverseReverse(Without(m, v));
    }
  }

  /** The example of LREM with count -1 on [x, y, x]: the last x goes. */
  lemma LRemFromTailExample<T>(x: T, y: T)
    requires x != y
    ensures LRemList([x, y, x], x, -1) == [x, y]
  {
    assert Reverse([x, y, x]) == [x, y, x] by {
      assert [x, y, x][1..] == [y, x];
      assert [y, x][1..] == [x];
    }
    var m := RemoveMatches([x, y, x], x, Some(1));
    assert [x, y, x][1..] == [y, x];
    assert [y, x][1..] == [x];
    assert RemoveMatches([x], x, Some(0)) == [x];
    assert RemoveMatches([y, x], x, Some(0)) == [y, x];
    assert m == [y, x];
    assert Reverse([y, x]) == [x, y] by {
      assert [y, x][1..] == [x];
    }
  }

  /** Redis' LREM: walk the list from the head (count >= 0) or from the
      tail (count < 0), deleting matches until |count| of them are gone. */
  method LRemScan<T(==)>(l: seq<T>, v: T, count: int) returns (kept: seq<T>, removed: nat)
    ensures kept == LRemList(l, v, count)
    ensures removed == |l| - |kept|
  {
    var items := if count < 0 then Reverse(l) else l;
    var limit: Option<nat> := if count == 0 then None else Some(if count < 0 then -count else count);
    var acc;
    acc, removed := RemoveScan(items, v, limit);
    if count < 0 {
      kept := Reverse(acc);
    } else {
      kept := acc;
    }
  }

  /** The iterator loop of LREM over `items` in scan order: each match is
      deleted while the budget lasts, everything else is kept. */
  method RemoveScan<T(==)>(items: seq<T>, v: T, limit: Option<nat>) returns (acc: seq<T>, removed: nat)
    ensures acc == RemoveMatches(items, v, limit)
    ensures removed == |items| - |acc|
  {
    acc := [];
    removed := 0;
    var i := 0;
    while i < |items|
      invariant 0 <= i <= |items|
      invariant limit.Some? ==> removed <= limit.value
      invariant |acc| + removed == i
      invariant acc + RemoveMatches(items[i..], v, Budget(limit, removed)) == RemoveMatches(items, v, limit)
    {
      var budget := Budget(limit, removed);
      assert items[i..][1..] == items[i + 1..];
      if items[i] == v && (limit.None? || removed < limit.value) {
        assert RemoveMatches(items[i..], v, budget) == RemoveMatches(items[i + 1..], v, Budget(limit, removed + 1));
        removed := removed + 1;
      } else {
        assert RemoveMatches(items[i..], v, budget) == [items[i]] + RemoveMatches(items[i + 1..], v, budget);
        acc := acc + [items[i]];
      }
      i := i + 1;
    }
    assert items[i..] == [];
  }

  /** What is left of `limit` after `used` removals. */
  function Budget(limit: Option<nat>, used: nat): Option<nat> {
    match limit
    case None => None
    case Some(n) => Some(if used <= n then n - used else 0)
  }
}

=== FILE: objects.dfy ===
/** The Java objects that reach the codec. */
module Objects {
  import opened Outcomes

  /** A Shiro session as the session store sees it: its id (`None` is Java's
      null id), its timeout in milliseconds, and everything else it carries
      (start time, host, attributes, ...) as one opaque bag that the store
      never looks into. */
  datatype Session = Session(id: Option<string>, timeoutMillis: int, attributes: map<string, string>)

  /** A value handed to `SerializeUtils`: a session, or any other object
      whose class may or may not implement `java.io.Serializable`. */
  datatype Obj =
    | SessionObject(session: Session)
    | OtherObject(className: string, isSerializable: bool, state: seq<int>)

  /** `object instanceof Serializable`; Shiro's sessions always are. */
  predicate IsSerializable(o: Obj) {
    o.SessionObject? || o.isSerializable
  }
}

=== FILE: outcomes.dfy ===
/** Failure-carrying datatypes shared by every layer of the model, and the
    byte type the cache works on.

    Java's `null` returns become `None`; every exception a caller can observe
    becomes a `Failure` inside `Err`. */
module Outcomes {

  /** An unsigned octet, the unit of every Redis key and value. */
  type byte = b: int | 0 <= b < 256

  datatype Option<+T> = None | Some(value: T)

  /** Every exception the modelled code lets escape to its caller. */
  datatype Failure =
    | WrongType          // Redis: operation against a key holding the wrong kind of value
    | NotAnInteger       // Redis: value is not an integer or out of range
    | IncrementOverflow  // Redis: increment or decrement would overflow
    | InvalidExpireTime  // Redis: SETEX with a non-positive expire time
    | WrongArity         // Redis: command issued without any value argument
    | NullArgument       // client refuses to send a null value
    | ClassCast          // Java: decoded object is not a Session
    | JsonSyntax         // fastjson could not parse the stored text

  datatype Result<+T> = Ok(value: T) | Err(failure: Failure)

  /** `xs` is an initial segment of `ys`. */
  predicate IsPrefix<T(==)>(xs: seq<T>, ys: seq<T>) {
    |xs| <= |ys| && ys[..|xs|] == xs
  }

  /** Signed 64-bit range (Java `long`, C `long long`). */
  predicate InInt64(n: int) {
    -0x8000_0000_0000_0000 <= n < 0x8000_0000_0000_0000
  }

  /** Signed 32-bit range (Java `int`). */
  predicate InInt32(n: int) {
    -0x8000_0000 <= n < 0x8000_0000
  }
}

=== FILE: redis_utils.dfy ===
/** `RedisUtils`: static helpers that turn Java strings and objects into
    Redis commands.

    A key given as a Java `String` goes to Redis as its UTF-8 bytes
    (`SafeEncoder.encode`). Bytes read back become a `String` by strict
    UTF-8 decoding. Where the bytes are not well-formed UTF-8, the result is
    whatever the JVM's replacement decoder makes of them (`Jvm.decodeMalformed`).
    An object value is stored as its fastjson text. fastjson is the
    parameter `Jvm.toJson`/`Jvm.parseJson`, and `JsonLawful` states the two
    facts about it that the round-trip lemmas need.

    The helpers are generic in the type `V` of the objects they store, which
    plays the role of the `Class<T>` argument of `get`. */
module RedisUtils {
  import opened Outcomes
  import Utf8
  import Redis
  import Lists
  import Decimal
  import Glob

  /** Seconds `put` and the short `setnx` overloads keep a key for. */
  const DefaultSeconds: int := 60 * 60

  /** What fastjson makes of a text: an object, Java's null, or a syntax
      error. */
  datatype JsonParse<V> = JsonValue(v: V) | JsonNull | JsonInvalid

  /** The JVM services the helpers call and that are not modelled. */
  datatype Jvm<!V> = Jvm(toJson: V -> string, parseJson: string -> JsonParse<V>,
                        decodeMalformed: seq<byte> -> string)

  /** fastjson reads back what it wrote, and the text "null" as null. The
      text of an object is never empty. */
  ghost predicate JsonLawful<V(!new)>(jvm: Jvm<V>) {
    && (forall v :: jvm.parseJson(jvm.toJson(v)) == JsonValue(v))
    && (forall v :: |jvm.toJson(v)| > 0)
    && jvm.parseJson("null") == JsonNull
  }

  /** `JSON.toJSONString(value)`: a null value is the text "null". */
  function Json<V>(jvm: Jvm<V>, value: Option<V>): string {
    match value
    case None => "null"
    case Some(v) => jvm.toJson(v)
  }

  /** `SafeEncoder.encode(String)`: the UTF-8 bytes. */
  function KeyBytes(s: string): Redis.Key {
    Utf8.Encode(s)
  }

  /** `SafeEncoder.encode(byte[])`: a `String` from UTF-8 bytes. */
  function JavaString<V>(jvm: Jvm<V>, b: seq<byte>): (r: string)
    ensures Utf8.Decode(b).Some? ==> Utf8.Encode(r) == b
  {
    match Utf8.Decode(b)
    case Some(s) => Utf8.EncodeDecode(b); s
    case None => jvm.decodeMalformed(b)
  }

  /** `put(key, value, seconds)`: SET the JSON text, then EXPIRE. A
      non-positive time deletes the key again. */
  function PutFor<V>(jvm: Jvm<V>, st: Redis.Store, key: string, value: Option<V>, seconds: int): (r: Redis.Store)
    ensures seconds > 0 ==> KeyBytes(key) in r
                            && r[KeyBytes(key)] == Redis.Entry(Redis.Text(KeyBytes(Json(jvm, value))), Redis.ExpiresIn(seconds))
    ensures seconds <= 0 ==> KeyBytes(key) !in r
    ensures r - {KeyBytes(key)} == st - {KeyBytes(key)}
    ensures Redis.Wf(st) ==> Redis.Wf(r)
  {
    var k := KeyBytes(key);
    Redis.Expire(Redis.Set(st, k, KeyBytes(Json(jvm, value))), k, seconds).store
  }

  /** `put(key, value)`: `put` for one hour. */
  function Put<V>(jvm: Jvm<V>, st: Redis.Store, key: string, value: Option<V>): (r: Redis.Store)
    ensures KeyBytes(key) in r && Redis.TtlOf(r, KeyBytes(key)) == DefaultSeconds
    ensures r[KeyBytes(key)].value == Redis.Text(KeyBytes(Json(jvm, value)))
    ensures r - {KeyBytes(key)} == st - {KeyBytes(key)}
  {
    PutFor(jvm, st, key, value, DefaultSeconds)
  }

  /** `get(key, clazz)`: null for a missing key or an empty value, otherwise
      the parsed JSON. WRONGTYPE and a JSON syntax error escape as
      exceptions. */
  function Get<V>(jvm: Jvm<V>, st: Redis.Store, key: string): (r: Result<Option<V>>)
    ensures KeyBytes(key) !in st ==> r == Ok(None)
    ensures KeyBytes(key) in st && st[KeyBytes(key)].value == Redis.Text([]) ==> r == Ok(None)
    ensures r == Err(WrongType) <==> KeyBytes(key) in st && st[KeyBytes(key)].value.List?
    ensures r.Ok? && r.value.Some? ==>
              KeyBytes(key) in st && st[KeyBytes(key)].value.Text? && |st[KeyBytes(key)].value.bytes| > 0
    ensures KeyBytes(key) in st && st[KeyBytes(key)].value.Text? && |st[KeyBytes(key)].value.bytes| > 0 ==>
              var parsed := jvm.parseJson(JavaString(jvm, st[KeyBytes(key)].value.bytes));
              && (r == Err(JsonSyntax) <==> parsed.JsonInvalid?)
              && (parsed.JsonNull? ==> r == Ok(None))
              && (parsed.JsonValue? ==> r == Ok(Some(parsed.v)))
  {
    match Redis.Get(st, KeyBytes(key))
    case Err(f) => Err(f)
    case Ok(None) => Ok(None)
    case Ok(Some(b)) =>
      if |b| == 0 then Ok(None)
      else match jvm.parseJson(JavaString(jvm, b))
        case JsonValue(v) => Ok(Some(v))
        case JsonNull => Ok(None)
        case JsonInvalid => Err(JsonSyntax)
  }

  /** `remove(key)`: DEL; answers 1 when the key was there. */
  function Remove(st: Redis.Store, key: string): (r: Redis.Reply<int>)
    ensures KeyBytes(key) !in r.store && r.store - {KeyBytes(key)} == st - {KeyBytes(key)}
    ensures r.answer == 1 <==> KeyBytes(key) in st
    ensures r.answer == 0 <==> KeyBytes(key) !in st
  {
    Redis.Del(st, KeyBytes(key))
  }

  /** `ttl(key)`: -2 missing, -1 no expiry, otherwise seconds left. */
  function Ttl(st: Redis.Store, key: string): (r: int)
    ensures r >= -2
    ensures r == -2 <==> KeyBytes(key) !in st
    ensures r == -1 <==> KeyBytes(key) in st && st[KeyBytes(key)].ttl.Persistent?
    ensures r >= 0 ==> KeyBytes(key) in st && st[KeyBytes(key)].ttl == Redis.ExpiresIn(r)
  {
    Redis.TtlOf(st, KeyBytes(key))
  }

  /** `setExpire(key, seconds)`: EXPIRE; the value is never touched. */
  function SetExpire(st: Redis.Store, key: string, seconds: int): (r: Redis.Store)
    ensures KeyBytes(key) in r ==> KeyBytes(key) in st && r[KeyBytes(key)].value == st[KeyBytes(key)].value
    ensures KeyBytes(key) in r <==> KeyBytes(key) in st && seconds > 0
    ensures KeyBytes(key) in r ==> Ttl(r, key) == seconds
    ensures r - {KeyBytes(key)} == st - {KeyBytes(key)}
  {
    Redis.Expire(st, KeyBytes(key), seconds).store
  }

  /** `exists(key)`. */
  function Exists(st: Redis.Store, key: string): (r: bool)
    ensures r <==> Ttl(st, key) != -2
  {
    Redis.Exists(st, KeyBytes(key))
  }

  /** `rpush(key, values...)`: appends the values' UTF-8 bytes and answers
      the new length. */
  function RPush(st: Redis.Store, key: string, values: seq<string>): (r: Result<Redis.Reply<int>>)
    ensures |values| == 0 ==> r == Err(WrongArity)
    ensures |values| > 0 && KeyBytes(key) in st && st[KeyBytes(key)].value.Text? ==> r == Err(WrongType)
    ensures r.Ok? <==> |values| > 0 && !(KeyBytes(key) in st && st[KeyBytes(key)].value.Text?)
    ensures r.Ok? ==> var before := if KeyBytes(key) in st && st[KeyBytes(key)].value.List? then st[KeyBytes(key)].value.items else [];
                      && KeyBytes(key) in r.value.store
                      && r.value.store[KeyBytes(key)].value == Redis.List(before + EncodeMany(values))
                      && r.value.answer == |before| + |values|
    ensures r.Ok? ==> r.value.store - {KeyBytes(key)} == st - {KeyBytes(key)}
  {
    Redis.RPush(st, KeyBytes(key), EncodeMany(values))
  }

  /** `SafeEncoder.encodeMany`. */
  function EncodeMany(values: seq<string>): (r: seq<seq<byte>>)
    ensures |r| == |values|
    ensures forall i :: 0 <= i < |values| ==> r[i] == KeyBytes(values[i])
  {
    if |values| == 0 then [] else [KeyBytes(values[0])] + EncodeMany(values[1..])
  }

  /** `BuilderFactory.STRING_LIST`: every element back to a `String`. */
  function Strings<V>(jvm: Jvm<V>, items: seq<seq<byte>>): (r: seq<string>)
    ensures |r| == |items|
    ensures forall i :: 0 <= i < |items| ==> r[i] == JavaString(jvm, items[i])
  {
    if |items| == 0 then [] else [JavaString(jvm, items[0])] + Strings(jvm, items[1..])
  }

  /** `lrange(key, start, end)`: the inclusive slice, as strings; `end` -1
      is the last element. */
  function LRange<V>(jvm: Jvm<V>, st: Redis.Store, key: string, start: int, end: int): (r: Result<seq<string>>)
    ensures KeyBytes(key) !in st ==> r == Ok([])
    ensures r == Err(WrongType) <==> KeyBytes(key) in st && st[KeyBytes(key)].value.Text?
    ensures r.Ok? <==> !(KeyBytes(key) in st && st[KeyBytes(key)].value.Text?)
    ensures r.Ok? && KeyBytes(key) in st ==>
              r.value == Strings(jvm, Lists.LRangeSlice(st[KeyBytes(key)].value.items, start, end))
  {
    match Redis.LRange(st, KeyBytes(key), start, end)
    case Err(f) => Err(f)
    case Ok(items) => Ok(Strings(jvm, items))
  }

  /** `lrem(key, value, count)`: count 0 removes every occurrence, a
      positive count the first `count`, a negative one the last `-count`. */
  function LRem(st: Redis.Store, key: string, value: string, count: int): (r: Result<Redis.Reply<int>>)
    ensures KeyBytes(key) !in st ==> r == Ok(Redis.Reply(0, st))
    ensures r == Err(WrongType) <==> KeyBytes(key) in st && st[KeyBytes(key)].value.Text?
    ensures r.Ok? <==> !(KeyBytes(key) in st && st[KeyBytes(key)].value.Text?)
    ensures r.Ok? && KeyBytes(key) in st ==>
              var items := st[KeyBytes(key)].value.items;
              var removed := r.value.answer;
              && removed == (if count == 0 then Lists.Count(items, KeyBytes(value))
                             else Lists.Min(if count > 0 then count else -count, Lists.Count(items, KeyBytes(value))))
              && (KeyBytes(key) in r.value.store ==>
                    r.value.store[KeyBytes(key)].value.List? &&
                    var kept := r.value.store[KeyBytes(key)].value.items;
                    Lists.Without(kept, KeyBytes(value)) == Lists.Without(items, KeyBytes(value))
                    && |kept| == |items| - removed)
    ensures r.Ok? ==>
              var items := Redis.ListAt(st, KeyBytes(key));
              var kept := Redis.ListAt(r.value.store, KeyBytes(key));
              && kept == Lists.LRemList(items, KeyBytes(value), count)
              && (count == 0 ==> kept == Lists.Without(items, KeyBytes(value)))
              && (count > 0 ==> Lists.ClearedFromHead(items, KeyBytes(value), count, kept))
              && (count < 0 ==> Lists.ClearedFromTail(items, KeyBytes(value), -count, kept))
    ensures r.Ok? ==> r.value.store - {KeyBytes(key)} == st - {KeyBytes(key)}
  {
    var r := Redis.LRem(st, KeyBytes(key), count, KeyBytes(value));
    Lists.LRemDirection(Redis.ListAt(st, KeyBytes(key)), KeyBytes(value), count);
    if KeyBytes(key) in st && r.Ok? then
      Lists.LRemListSpec(st[KeyBytes(key)].value.items, KeyBytes(value), count);
      r
    else r
  }

  /** The number `key` holds as a counter: 0 when absent, `None` when it
      holds a list or text that is not a signed 64-bit decimal. */
  function Counter(st: Redis.Store, key: string): (r: Option<int>)
    ensures r.Some? ==> InInt64(r.value)
    ensures KeyBytes(key) !in st ==> r == Some(0)
  {
    var k := KeyBytes(key);
    if k !in st then Some(0)
    else match st[k].value
      case List(_) => None
      case Text(b) =>
        var n := Decimal.Parse(b);
        if n.Some? then
          Decimal.ParseFormat(b);
          n
        else n
  }

  /** `incrBy(key, num)`: adds `num` to the counter and answers the sum;
      fails when the key holds no counter or the sum leaves the 64-bit
      range. The time to live is kept. */
  function IncrBy(st: Redis.Store, key: string, num: int): (r: Result<Redis.Reply<int>>)
    requires InInt64(num)
    ensures Counter(st, key).None? ==> r.Err?
    ensures Counter(st, key).Some? && InInt64(Counter(st, key).value + num) ==> r.Ok?
    ensures r.Ok? ==> && Counter(st, key).Some?
                      && r.value.answer == Counter(st, key).value + num
                      && Counter(r.value.store, key) == Some(r.value.answer)
                      && Ttl(r.value.store, key) == (if KeyBytes(key) in st then Ttl(st, key) else -1)
                      && r.value.store - {KeyBytes(key)} == st - {KeyBytes(key)}
  {
    var r := Redis.IncrBy(st, KeyBytes(key), num);
    if r.Ok? then
      Decimal.FormatParse(r.value.answer);
      r
    else r
  }

  /** `incr(key)`: INCRBY 1, so a missing key becomes 1. */
  function Incr(st: Redis.Store, key: string): (r: Result<Redis.Reply<int>>)
    ensures KeyBytes(key) !in st ==> r.Ok? && r.value.answer == 1
    ensures Counter(st, key).None? ==> r.Err?
    ensures Counter(st, key).Some? && InInt64(Counter(st, key).value + 1) ==> r.Ok?
    ensures r.Ok? ==> Counter(st, key).Some? && r.value.answer == Counter(st, key).value + 1
                      && Counter(r.value.store, key) == Some(r.value.answer)
                      && Ttl(r.value.store, key) == (if KeyBytes(key) in st then Ttl(st, key) else -1)
                      && r.value.store - {KeyBytes(key)} == st - {KeyBytes(key)}
  {
    IncrBy(st, key, 1)
  }

  /** `decrBy(key, num)`: subtracts `num`; Redis refuses the one delta whose
      negation does not fit in 64 bits. */
  function DecrBy(st: Redis.Store, key: string, num: int): (r: Result<Redis.Reply<int>>)
    requires InInt64(num)
    ensures num == Redis.MinInt64 ==> r == Err(IncrementOverflow)
    ensures Counter(st, key).None? ==> r.Err?
    ensures num != Redis.MinInt64 && Counter(st, key).Some? && InInt64(Counter(st, key).value - num) ==> r.Ok?
    ensures r.Ok? ==> && Counter(st, key).Some?
                      && r.value.answer == Counter(st, key).value - num
                      && Counter(r.value.store, key) == Some(r.value.answer)
                      && Ttl(r.value.store, key) == (if KeyBytes(key) in st then Ttl(st, key) else -1)
                      && r.value.store - {KeyBytes(key)} == st - {KeyBytes(key)}
  {
    if num == Redis.MinInt64 then Redis.DecrBy(st, KeyBytes(key), num)
    else
      assert Redis.DecrBy(st, KeyBytes(key), num) == Redis.IncrBy(st, KeyBytes(key), -num);
      IncrBy(st, key, -num)
  }

  /** `decr(key)`: DECRBY 1, so a missing key becomes -1. */
  function Decr(st: Redis.Store, key: string): (r: Result<Redis.Reply<int>>)
    ensures KeyBytes(key) !in st ==> r.Ok? && r.value.answer == -1
    ensures Counter(st, key).None? ==> r.Err?
    ensures Counter(st, key).Some? && InInt64(Counter(st, key).value - 1) ==> r.Ok?
    ensures r.Ok? ==> Counter(st, key).Some? && r.value.answer == Counter(st, key).value - 1
                      && Counter(r.value.store, key) == Some(r.value.answer)
                      && Ttl(r.value.store, key) == (if KeyBytes(key) in st then Ttl(st, key) else -1)
                      && r.value.store - {KeyBytes(key)} == st - {KeyBytes(key)}
  {
    DecrBy(st, key, 1)
  }

  /** `setnx(key, value, seconds, refreshExpireTime)`: SETNX the JSON text,
      then EXPIRE when the write happened or `refreshExpireTime` is set;
      answers 1 for a write and 0 otherwise. */
  function SetNx<V>(jvm: Jvm<V>, st: Redis.Store, key: string, value: Option<V>, seconds: int,
                    refreshExpireTime: bool): (r: Redis.Reply<int>)
    ensures r.answer == 1 <==> KeyBytes(key) !in st
    ensures r.answer == 0 <==> KeyBytes(key) in st
    ensures KeyBytes(key) in st && !refreshExpireTime ==> r.store == st
    ensures KeyBytes(key) in r.store ==>
              (r.store[KeyBytes(key)].value == if KeyBytes(key) in st then st[KeyBytes(key)].value
                                          else Redis.Text(KeyBytes(Json(jvm, value))))
    ensures (KeyBytes(key) in r.store <==> (KeyBytes(key) in st && !refreshExpireTime) || seconds > 0)
    ensures KeyBytes(key) in r.store && (refreshExpireTime || KeyBytes(key) !in st) ==> Ttl(r.store, key) == seconds
    ensures r.store - {KeyBytes(key)} == st - {KeyBytes(key)}
    ensures Redis.Wf(st) ==> Redis.Wf(r.store)
  {
    var k := KeyBytes(key);
    var written := Redis.SetNx(st, k, KeyBytes(Json(jvm, value)));
    var store := if refreshExpireTime || written.answer then Redis.Expire(written.store, k, seconds).store
                 else written.store;
    Redis.Reply(if written.answer then 1 else 0, store)
  }

  /** `setnx(key, value, seconds)`: always refreshes the time to live. */
  function SetNxFor<V>(jvm: Jvm<V>, st: Redis.Store, key: string, value: Option<V>, seconds: int): (r: Redis.Reply<int>)
    ensures r.answer == 1 <==> KeyBytes(key) !in st
    ensures seconds > 0 ==> KeyBytes(key) in r.store && Ttl(r.store, key) == seconds
    ensures seconds <= 0 ==> KeyBytes(key) !in r.store
    ensures r.store - {KeyBytes(key)} == st - {KeyBytes(key)}
  {
    SetNx(jvm, st, key, value, seconds, true)
  }

  /** `setnx(key, value)`: one hour, refreshed. */
  function SetNxDefault<V>(jvm: Jvm<V>, st: Redis.Store, key: string, value: Option<V>): (r: Redis.Reply<int>)
    ensures r.answer == 1 <==> KeyBytes(key) !in st
    ensures KeyBytes(key) in r.store && Ttl(r.store, key) == DefaultSeconds
    ensures r.store - {KeyBytes(key)} == st - {KeyBytes(key)}
  {
    SetNxFor(jvm, st, key, value, DefaultSeconds)
  }

  /** `get(byte[] key)`: the raw bytes; null when absent. */
  function GetBytes(st: Redis.Store, key: seq<byte>): (r: Result<Option<seq<byte>>>)
    ensures key !in st ==> r == Ok(None)
    ensures r == Err(WrongType) <==> key in st && st[key].value.List?
    ensures r.Ok? && r.value.Some? ==> key in st && st[key].value == Redis.Text(r.value.value)
    ensures key in st && st[key].value.Text? ==> r == Ok(Some(st[key].value.bytes))
  {
    Redis.Get(st, key)
  }

  /** `set(key, value, seconds)`: SET then EXPIRE, answering the very
      `value` it was given. The client refuses a null value. */
  function SetBytes(st: Redis.Store, key: seq<byte>, value: Option<seq<byte>>, seconds: int): (r: Result<Redis.Reply<seq<byte>>>)
    ensures r.Err? <==> value.None?
    ensures r.Ok? ==> r.value.answer == value.value
    ensures r.Ok? && seconds > 0 ==> key in r.value.store
                                     && r.value.store[key] == Redis.Entry(Redis.Text(value.value), Redis.ExpiresIn(seconds))
    ensures r.Ok? && seconds <= 0 ==> key !in r.value.store
    ensures r.Ok? ==> r.value.store - {key} == st - {key}
  {
    match value
    case None => Err(NullArgument)
    case Some(v) => Ok(Redis.Reply(v, Redis.Expire(Redis.Set(st, key, v), key, seconds).store))
  }

  /** `del(key)`. */
  function DelBytes(st: Redis.Store, key: seq<byte>): (r: Redis.Reply<int>)
    ensures key !in r.store && r.store - {key} == st - {key}
    ensures r.answer == 1 <==> key in st
    ensures r.answer == 0 <==> key !in st
  {
    Redis.Del(st, key)
  }

  /** `keys(pattern)`: the keys the glob pattern, sent as UTF-8, matches. */
  function KeysMatching(st: Redis.Store, pattern: string): (r: set<seq<byte>>)
    ensures r <= st.Keys
    ensures forall k :: k in st ==> (k in r <==> Glob.KeyMatches(KeyBytes(pattern), k))
  {
    Redis.Keys(st, KeyBytes(pattern))
  }

  // Properties relating several helpers

  /** `get` after `put` gives back the value put, as long as the key lives. */
  lemma PutThenGet<V(!new)>(jvm: Jvm<V>, st: Redis.Store, key: string, value: Option<V>, seconds: int)
    requires JsonLawful(jvm) && seconds > 0
    ensures Get(jvm, PutFor(jvm, st, key, value, seconds), key) == Ok(value)
  {
    var text := Json(jvm, value);
    Utf8.DecodeEncode(text);
    if value.None? {
      assert |KeyBytes(text)| > 0 by { assert |text| == 4; }
    } else {
      assert |text| > 0;
    }
  }

  /** With refresh off, a second `setnx` on the same key answers 0 and
      changes nothing: the first value and its time to live stay. */
  lemma SetNxKeepsFirst<V>(jvm: Jvm<V>, st: Redis.Store, key: string, a: Option<V>, b: Option<V>, seconds: int)
    requires seconds > 0
    ensures var first := SetNx(jvm, st, key, a, seconds, false);
            var second := SetNx(jvm, first.store, key, b, seconds, false);
            && second.answer == 0
            && second.store == first.store
            && (KeyBytes(key) !in st ==> first.answer == 1
                                          && first.store[KeyBytes(key)].value == Redis.Text(KeyBytes(Json(jvm, a))))
  {
  }

  /** INCRBY n followed by DECRBY n puts the store back as it was, when the
      key held a counter in canonical decimal form. */
  lemma IncrThenDecrRestores(st: Redis.Store, key: string, num: int)
    requires InInt64(num) && num != Redis.MinInt64
    requires KeyBytes(key) in st && IncrBy(st, key, num).Ok?
    ensures var up := IncrBy(st, key, num).value;
            DecrBy(up.store, key, num) == Ok(Redis.Reply(Counter(st, key).value, st))
  {
    var k := KeyBytes(key);
    var up := IncrBy(st, key, num).value;
    var b := st[k].value.bytes;
    Decimal.ParseFormat(b);
    Decimal.FormatParse(up.answer);
    var down := DecrBy(up.store, key, num);
    assert down.Ok?;
    assert down.value.store[k] == st[k];
    assert down.value.store == st;
  }

  /** RPUSH into a missing key, then LRANGE 0 -1, gives the values back. */
  lemma RPushThenLRange<V>(jvm: Jvm<V>, st: Redis.Store, key: string, values: seq<string>)
    requires KeyBytes(key) !in st && |values| > 0
    ensures RPush(st, key, values).Ok?
    ensures LRange(jvm, RPush(st, key, values).value.store, key, 0, -1) == Ok(values)
  {
    var k := KeyBytes(key);
    var items := EncodeMany(values);
    var st' := RPush(st, key, values).value.store;
    assert st'[k].value == Redis.List(items);
    Lists.LRangeWhole(items);
    assert Redis.LRange(st', k, 0, -1) == Ok(items);
    StringsOfEncodeMany(jvm, values);
  }

  /** Strings sent with `encodeMany` come back unchanged. */
  lemma {:induction false} StringsOfEncodeMany<V>(jvm: Jvm<V>, values: seq<string>)
    ensures Strings(jvm, EncodeMany(values)) == values
  {
    if |values| > 0 {
      var items := EncodeMany(values);
      assert items[1..] == EncodeMany(values[1..]);
      Utf8.DecodeEncode(values[0]);
      StringsOfEncodeMany(jvm, values[1..]);
      assert [values[0]] + values[1..] == values;
    }
  }

  /** `set` then `get(byte[])` gives the bytes back while the key lives. */
  lemma SetThenGetBytes(st: Redis.Store, key: seq<byte>, value: seq<byte>, seconds: int)
    requires seconds > 0
    ensures GetBytes(SetBytes(st, key, Some(value), seconds).value.store, key) == Ok(Some(value))
  {
  }
}

=== FILE: serialize.dfy ===
/** `SerializeUtils`: the guards around Java object serialization.

    The Java object-stream format itself is not modelled. It is the
    parameter `ObjectCodec`, and the lemmas that need it to behave assume
    `Lawful`. That predicate states two things. Every stream starts with the
    stream header. Reading a stream back yields the object that was
    written, whatever bytes follow it. (`readObject` reads one object and
    leaves the rest unread.)

    The optional suffix of `serialize(Object, String)` is concrete. The
    suffix goes through `writeChars`, which writes each UTF-16 code unit as
    two big-endian bytes. The stream is in block-data mode at that point,
    so the bytes land in block-data records of at most 1024 bytes, each
    behind a TC_BLOCKDATA header (0x77, one length byte) or a
    TC_BLOCKDATALONG header (0x7A, four length bytes). */
module SerializeUtils {
  import opened Outcomes
  import opened Objects

  /** STREAM_MAGIC 0xACED followed by STREAM_VERSION 5. */
  const StreamHeader: seq<byte> := [0xAC, 0xED, 0x00, 0x05]

  const BlockDataTag: byte := 0x77
  const BlockDataLongTag: byte := 0x7A
  const MaxBlockSize: nat := 1024

  /** The JVM's object stream: `write` is `writeObject` on a fresh stream
      (`None` when some object in the graph cannot be written), `read` is
      `readObject` (`None` for any failure or a null object). */
  datatype ObjectCodec = ObjectCodec(write: Obj -> Option<seq<byte>>, read: seq<byte> -> Option<Obj>)

  ghost predicate Lawful(c: ObjectCodec) {
    && (forall o :: c.write(o).Some? ==> IsPrefix(StreamHeader, c.write(o).value))
    && (forall o, b {:trigger c.read(b), c.write(o)} ::
          c.write(o).Some? && IsPrefix(c.write(o).value, b) ==> c.read(b) == Some(o))
  }

  /** `isEmpty`: null or no bytes. */
  predicate IsEmpty(data: Option<seq<byte>>) {
    data.None? || |data.value| == 0
  }

  /** `deserialize`: null for null or empty input; otherwise whatever the
      stream reads, with every failure reported as null. */
  function Deserialize(c: ObjectCodec, bytes: Option<seq<byte>>): (r: Option<Obj>)
    ensures IsEmpty(bytes) ==> r == None
    ensures r.Some? ==> !IsEmpty(bytes) && c.read(bytes.value) == r
    ensures !IsEmpty(bytes) ==> r == c.read(bytes.value)
  {
    if IsEmpty(bytes) then None else c.read(bytes.value)
  }

  /** Java's `Character.isWhitespace` (Java 8, Unicode 6.2): the space
      separators except the no-break ones, the line and paragraph
      separators, and the controls U+0009..U+000D and U+001C..U+001F. */
  predicate IsJavaWhitespace(ch: char) {
    var n := ch as int;
    || 0x09 <= n <= 0x0D || 0x1C <= n <= 0x20
    || n == 0x1680 || n == 0x180E
    || 0x2000 <= n <= 0x2006 || 0x2008 <= n <= 0x200A
    || n == 0x2028 || n == 0x2029 || n == 0x205F || n == 0x3000
  }

  /** commons-lang `StringUtils.isBlank`: null, empty or only whitespace. */
  predicate IsBlank(s: Option<string>) {
    s.None? || forall i :: 0 <= i < |s.value| ==> IsJavaWhitespace(s.value[i])
  }

  /** The UTF-16 code units of one scalar value. */
  function Utf16(ch: char): (r: seq<int>)
    ensures 1 <= |r| <= 2
    ensures forall i :: 0 <= i < |r| ==> 0 <= r[i] < 0x1_0000
  {
    var n := ch as int;
    if n < 0x1_0000 then [n]
    else [0xD800 + (n - 0x1_0000) / 0x400, 0xDC00 + (n - 0x1_0000) % 0x400]
  }

  function UnitBytes(units: seq<int>): (r: seq<byte>)
    requires forall i :: 0 <= i < |units| ==> 0 <= units[i] < 0x1_0000
    ensures |r| == 2 * |units|
  {
    if |units| == 0 then [] else [units[0] / 256, units[0] % 256] + UnitBytes(units[1..])
  }

  /** `writeChars(s)`: two big-endian bytes per UTF-16 code unit. */
  function CharBytes(s: string): seq<byte> {
    if |s| == 0 then [] else UnitBytes(Utf16(s[0])) + CharBytes(s[1..])
  }

  function BlockHeader(len: nat): seq<byte>
    requires len <= MaxBlockSize
  {
    if len <= 0xFF then [BlockDataTag, len] else [BlockDataLongTag, 0, 0, len / 256, len % 256]
  }

  /** Primitive data as block-data mode frames it: full 1024-byte blocks,
      then one block with the remainder. */
  function Blocks(d: seq<byte>): seq<byte>
    decreases |d|
  {
    if |d| == 0 then []
    else
      var k := if |d| < MaxBlockSize then |d| else MaxBlockSize;
      BlockHeader(k) + d[..k] + Blocks(d[k..])
  }

  /** `serialize(object, str)`: null gives no bytes, a non-Serializable
      object or any failure while writing gives null (the exception is
      logged and swallowed), otherwise the stream, with the characters of a
      non-blank `str` appended. */
  function SerializeWith(c: ObjectCodec, o: Option<Obj>, suffix: Option<string>): (r: Option<seq<byte>>)
    ensures o.None? ==> r == Some([])
    ensures o.Some? && !IsSerializable(o.value) ==> r == None
    ensures o.Some? && IsSerializable(o.value) ==> (r.Some? <==> c.write(o.value).Some?)
    ensures o.Some? && r.Some? ==> IsPrefix(c.write(o.value).value, r.value)
    ensures o.Some? && r.Some? ==> (IsBlank(suffix) <==> r.value == c.write(o.value).value)
    ensures Lawful(c) && o.Some? && r.Some? ==> Deserialize(c, r) == o
  {
    if o.None? then Some([])
    else if !IsSerializable(o.value) then None
    else match c.write(o.value)
      case None => None
      case Some(w) =>
        var tail := if IsBlank(suffix) then [] else Blocks(CharBytes(suffix.value));
        NonBlankTail(suffix);
        assert IsPrefix(w, w + tail);
        Some(w + tail)
  }

  /** `serialize(object)`: the same as with a null suffix. */
  function Serialize(c: ObjectCodec, o: Option<Obj>): (r: Option<seq<byte>>)
    ensures r == SerializeWith(c, o, None)
    ensures o.Some? && r.Some? ==> r.value == c.write(o.value).value
  {
    SerializeWith(c, o, None)
  }

  /** A non-blank suffix has a character, so it always adds bytes. */
  lemma NonBlankTail(suffix: Option<string>)
    ensures !IsBlank(suffix) ==> |Blocks(CharBytes(suffix.value))| > 0
  {
    if !IsBlank(suffix) {
      var s := suffix.value;
      assert |s| > 0;
      var d := CharBytes(s);
      assert |d| >= 2;
    }
  }

  /** An unsigned big-endian number. */
  function BigEndian(b: seq<byte>): nat {
    if |b| == 0 then 0 else BigEndian(b[..|b| - 1]) * 256 + b[|b| - 1]
  }

  lemma BigEndianOfLength(k: nat)
    requires k < 0x1_0000
    ensures BigEndian([0, 0, k / 256, k % 256]) == k
  {
    var b: seq<byte> := [0, 0, k / 256, k % 256];
    var z: seq<byte> := [0];
    assert z[..0] == [];
    assert BigEndian(z) == 0;
    var zz: seq<byte> := [0, 0];
    assert zz[..1] == z;
    assert BigEndian(zz) == 0;
    assert b[..3] == [0, 0, k / 256] && b[..3][..2] == zz;
    assert BigEndian(b[..3]) == k / 256;
  }

  /** Reads back block-data records: the inverse of `Blocks`. */
  function ReadBlocks(b: seq<byte>): Option<seq<byte>>
    decreases |b|
  {
    if |b| == 0 then Some([])
    else if b[0] == BlockDataTag && |b| >= 2 && |b| >= 2 + b[1] as int then
      var len: int := b[1];
      match ReadBlocks(b[2 + len..])
      case None => None
      case Some(rest) => Some(b[2..2 + len] + rest)
    else if b[0] == BlockDataLongTag && |b| >= 5 then
      var len := BigEndian(b[1..5]);
      if |b| >= 5 + len then
        match ReadBlocks(b[5 + len..])
        case None => None
        case Some(rest) => Some(b[5..5 + len] + rest)
      else None
    else None
  }

  /** Reads back big-endian UTF-16: the inverse of `CharBytes`. */
  function ReadChars(b: seq<byte>): Option<string>
    decreases |b|
  {
    if |b| == 0 then Some([])
    else if |b| < 2 then None
    else
      var u := b[0] as int * 256 + b[1] as int;
      if u < 0xD800 || 0xE000 <= u then
        match ReadChars(b[2..])
        case None => None
        case Some(rest) => Some([u as char] + rest)
      else if u < 0xDC00 && |b| >= 4 && 0xDC <= b[2] < 0xE0 then
        var w := b[2] as int * 256 + b[3] as int;
        var n := 0x1_0000 + (u - 0xD800) * 0x400 + (w - 0xDC00);
        match ReadChars(b[4..])
        case None => None
        case Some(rest) => Some([n as char] + rest)
      else None
  }

  lemma {:induction false} ReadBlocksOfBlocks(d: seq<byte>)
    ensures ReadBlocks(Blocks(d)) == Some(d)
    decreases |d|
  {
    if |d| > 0 {
      var k := if |d| < MaxBlockSize then |d| else MaxBlockSize;
      var h := BlockHeader(k);
      var b := Blocks(d);
      assert b == h + d[..k] + Blocks(d[k..]);
      assert b[..|h|] == h;
      assert b[|h|..|h| + k] == d[..k];
      assert b[|h| + k..] == Blocks(d[k..]);
      if k > 0xFF {
        assert b[1..5] == h[1..5] == [0, 0, k / 256, k % 256];
        BigEndianOfLength(k);
      }
      ReadBlocksOfBlocks(d[k..]);
      assert d[..k] + d[k..] == d;
    }
  }

  lemma ReadFirstChar(ch: char, rest: seq<byte>)
    ensures var b := UnitBytes(Utf16(ch)) + rest;
            ReadChars(b) == (match ReadChars(rest)
                             case None => None
                             case Some(t) => Some([ch] + t))
  {
    var n := ch as int;
    var units := Utf16(ch);
    var b := UnitBytes(units) + rest;
    if n < 0x1_0000 {
      assert UnitBytes(units) == [n / 256, n % 256];
      assert b[2..] == rest;
    } else {
      var hi := 0xD800 + (n - 0x1_0000) / 0x400;
      var lo := 0xDC00 + (n - 0x1_0000) % 0x400;
      assert UnitBytes(units) == [hi / 256, hi % 256, lo / 256, lo % 256];
      assert b[4..] == rest;
      assert (hi / 256) * 256 + hi % 256 == hi;
      assert (lo / 256) * 256 + lo % 256 == lo;
      assert 0x1_0000 + (hi - 0xD800) * 0x400 + (lo - 0xDC00) == n;
    }
  }

  lemma {:induction false} ReadCharsOfCharBytes(s: string)
    ensures ReadChars(CharBytes(s)) == Some(s)
  {
    if |s| > 0 {
      ReadFirstChar(s[0], CharBytes(s[1..]));
      ReadCharsOfCharBytes(s[1..]);
      assert [s[0]] + s[1..] == s;
    }
  }

  /** Round trip: what `deserialize` makes of the bytes `serialize` wrote
      for an object it accepted is that object, with or without a suffix. */
  lemma SerializeRoundTrip(c: ObjectCodec, o: Obj, suffix: Option<string>)
    requires Lawful(c) && IsSerializable(o) && c.write(o).Some?
    ensures SerializeWith(c, Some(o), suffix).Some?
    ensures Deserialize(c, SerializeWith(c, Some(o), suffix)) == Some(o)
  {
  }

  /** The suffix is not lost: after the stream, the block-data records
      carry exactly the characters of a non-blank suffix. */
  lemma SuffixRecoverable(c: ObjectCodec, o: Obj, suffix: Option<string>)
    requires IsSerializable(o) && c.write(o).Some? && !IsBlank(suffix)
    ensures var out := SerializeWith(c, Some(o), suffix).value;
            var w := c.write(o).value;
            && IsPrefix(w, out)
            && ReadBlocks(out[|w|..]).Some?
            && ReadChars(ReadBlocks(out[|w|..]).value) == suffix
  {
    var w := c.write(o).value;
    var d := CharBytes(suffix.value);
    var out := SerializeWith(c, Some(o), suffix).value;
    assert out == w + Blocks(d);
    assert out[|w|..] == Blocks(d);
    ReadBlocksOfBlocks(d);
    ReadCharsOfCharBytes(suffix.value);
  }

  /** A null object serializes to no bytes whatever the suffix. */
  lemma SerializeNull(c: ObjectCodec, suffix: Option<string>)
    ensures SerializeWith(c, None, suffix) == Some([])
    ensures Deserialize(c, SerializeWith(c, None, suffix)) == None
  {
  }
}

=== FILE: session_dao.dfy ===
/** `RedisSessionDAO`: Shiro's session store, kept in Redis.

    A session lives under the key `keyPrefix + id`, sent as UTF-8, as the
    Java serialization of the session, with a time to live of `expire`
    seconds. Session ids are taken to be strings: the key uses the id's
    `toString`, and Shiro's default generator produces UUID strings.

    Shiro's `generateSessionId` is the parameter `newId` of `DoCreate`. The
    object stream is the `ObjectCodec` parameter of `SerializeUtils`. */
module SessionDao {
  import opened Outcomes
  import opened Objects
  import Utf8
  import Redis
  import Glob
  import SerializeUtils
  import RedisUtils

  /** The DAO's two settings. */
  datatype Config = Config(keyPrefix: string, expire: int)

  const DefaultKeyPrefix: string := "shiro_redis_session:"
  const DefaultExpire: int := 60 * 60

  /** `expire` is a Java `int`. */
  predicate ValidConfig(cfg: Config) {
    InInt32(cfg.expire)
  }

  function DefaultConfig(): (r: Config)
    ensures ValidConfig(r) && r.expire > 0
  {
    Config(DefaultKeyPrefix, DefaultExpire)
  }

  /** `getByteKey`: the UTF-8 bytes of prefix and id. */
  function ByteKey(cfg: Config, id: string): (r: Redis.Key)
    ensures IsPrefix(Utf8.Encode(cfg.keyPrefix), r)
    ensures |r| >= |Utf8.Encode(cfg.keyPrefix)| + |id|
  {
    Utf8.EncodeAppend(cfg.keyPrefix, id);
    Utf8.Encode(cfg.keyPrefix + id)
  }

  /** Distinct ids never share a key. */
  lemma ByteKeyInjective(cfg: Config, a: string, b: string)
    ensures ByteKey(cfg, a) == ByteKey(cfg, b) <==> a == b
  {
    if ByteKey(cfg, a) == ByteKey(cfg, b) {
      Utf8.EncodeInjective(cfg.keyPrefix + a, cfg.keyPrefix + b);
      assert a == (cfg.keyPrefix + a)[|cfg.keyPrefix|..];
      assert b == (cfg.keyPrefix + b)[|cfg.keyPrefix|..];
    }
  }

  // Session timeout in milliseconds

  const TwoTo31: int := 0x8000_0000
  const TwoTo32: int := 0x1_0000_0000

  /** The Java `int` a wider integer result wraps to. */
  function Int32Wrap(n: int): (r: int)
    ensures InInt32(r)
    ensures (r - n) % TwoTo32 == 0
    ensures InInt32(n) ==> r == n
  {
    (n + TwoTo31) % TwoTo32 - TwoTo31
  }

  /** `expire * 1000` as written: a product of two `int`s, which wraps
      before it is widened for `setTimeout(long)`. */
  function TimeoutMillisAsWritten(expire: int): (r: int)
    requires InInt32(expire)
    ensures InInt32(r)
    ensures (r - expire * 1000) % TwoTo32 == 0
  {
    Int32Wrap(expire * 1000)
  }

  /** The timeout meant: `expire` seconds in milliseconds, computed in
      `long` arithmetic, where it cannot overflow. */
  function TimeoutMillis(expire: int): (r: int)
    requires InInt32(expire)
    ensures InInt64(r)
    ensures r / 1000 == expire && r % 1000 == 0
    ensures (r > 0) == (expire > 0)
  {
    expire * 1000
  }

  /** The written form agrees with the meant one exactly when the product
      fits in an `int`, that is, for `expire` up to 2147483 seconds. */
  lemma TimeoutAgreement(expire: int)
    requires InInt32(expire)
    ensures TimeoutMillisAsWritten(expire) == TimeoutMillis(expire) <==> -2147483 <= expire <= 2147483
  {
    if -2147483 <= expire <= 2147483 {
      assert InInt32(expire * 1000);
    } else {
      assert !InInt32(expire * 1000);
    }
  }

  /** An expiry of 2147484 seconds (under 25 days) makes the in-memory
      timeout negative, which Shiro reads as "never expires". */
  lemma TimeoutOverflowExample()
    ensures TimeoutMillisAsWritten(2147484) == -2147483296
    ensures TimeoutMillis(2147484) == 2147484000
  {
  }

  // saveSession, update, delete

  /** What a save leaves behind: the caller's session object (whose
      timeout the save changes), whether an exception escaped, and the
      store. */
  datatype Saved = Saved(session: Option<Session>, outcome: Result<()>, store: Redis.Store)

  /** Whether the null guard of `saveSession` and `delete` lets a session
      through. */
  predicate HasId(session: Option<Session>) {
    session.Some? && session.value.id.Some?
  }

  /** The bytes a save writes: the session as it was before the save set
      its timeout. */
  function Blob(codec: SerializeUtils.ObjectCodec, s: Session): Option<seq<byte>> {
    SerializeUtils.Serialize(codec, Some(SessionObject(s)))
  }

  /** `saveSession`: serializes the session, sets its timeout to `expire`
      seconds (computed as the code does, in `int` arithmetic that wraps
      past 2147483 seconds), and stores the bytes with SETEX under the
      session's key.
      A null session or id is logged and ignored. A failed serialization
      leaves null bytes, which the client refuses to send. Redis refuses a
      non-positive `expire`. */
  function SaveSession(cfg: Config, codec: SerializeUtils.ObjectCodec, st: Redis.Store,
                       session: Option<Session>): (r: Saved)
    requires ValidConfig(cfg)
    ensures !HasId(session) ==> r == Saved(session, Ok(()), st)
    ensures HasId(session) ==>
              r.session == Some(session.value.(timeoutMillis := TimeoutMillisAsWritten(cfg.expire)))
    ensures HasId(session) && -2147483 <= cfg.expire <= 2147483 ==>
              r.session.value.timeoutMillis == TimeoutMillis(cfg.expire)
    ensures HasId(session) ==>
              (r.outcome.Ok? <==> Blob(codec, session.value).Some? && cfg.expire > 0)
    ensures HasId(session) && Blob(codec, session.value).None? ==> r.outcome == Err(NullArgument)
    ensures HasId(session) && Blob(codec, session.value).Some? && cfg.expire <= 0 ==>
              r.outcome == Err(InvalidExpireTime)
    ensures r.outcome.Err? ==> r.store == st
    ensures HasId(session) && r.outcome.Ok? ==>
              var k := ByteKey(cfg, session.value.id.value);
              && k in r.store
              && r.store[k] == Redis.Entry(Redis.Text(Blob(codec, session.value).value), Redis.ExpiresIn(cfg.expire))
              && r.store - {k} == st - {k}
    ensures Redis.Wf(st) ==> Redis.Wf(r.store)
  {
    if !HasId(session) then Saved(session, Ok(()), st)
    else
      var s := session.value;
      var key := ByteKey(cfg, s.id.value);
      var value := Blob(codec, s);
      var timed := s.(timeoutMillis := TimeoutMillisAsWritten(cfg.expire));
      TimeoutAgreement(cfg.expire);
      match value
      case None => Saved(Some(timed), Err(NullArgument), st)
      case Some(bytes) =>
        match Redis.SetEx(st, key, cfg.expire, bytes)
        case Err(f) => Saved(Some(timed), Err(f), st)
        case Ok(st') => Saved(Some(timed), Ok(()), st')
  }

  /** `update`: a save. */
  function Update(cfg: Config, codec: SerializeUtils.ObjectCodec, st: Redis.Store,
                  session: Option<Session>): (r: Saved)
    requires ValidConfig(cfg)
    ensures r == SaveSession(cfg, codec, st, session)
  {
    SaveSession(cfg, codec, st, session)
  }

  /** `delete`: checks for a null session or id and does nothing else; the
      entry lives on until it expires. */
  function Delete(cfg: Config, st: Redis.Store, session: Option<Session>): (r: Redis.Store)
    ensures r == st
  {
    st
  }

  // doReadSession, doCreate

  /** `doReadSession`: null for a null id; otherwise the stored session.
      Every failure on the way (WRONGTYPE, undecodable bytes, an object
      that is not a session) is caught and read as null. */
  function DoReadSession(cfg: Config, codec: SerializeUtils.ObjectCodec, st: Redis.Store,
                         id: Option<string>): (r: Option<Session>)
    ensures id.None? ==> r.None?
    ensures id.Some? && ByteKey(cfg, id.value) !in st ==> r.None?
    ensures id.Some? && ByteKey(cfg, id.value) in st && st[ByteKey(cfg, id.value)].value.List? ==> r.None?
    ensures r.Some? ==>
              var k := ByteKey(cfg, id.value);
              && k in st && st[k].value.Text?
              && SerializeUtils.Deserialize(codec, Some(st[k].value.bytes)) == Some(SessionObject(r.value))
    ensures forall s: Session ::
              (id.Some? && ByteKey(cfg, id.value) in st && st[ByteKey(cfg, id.value)].value.Text?
               && SerializeUtils.Deserialize(codec, Some(st[ByteKey(cfg, id.value)].value.bytes)) == Some(SessionObject(s)))
              ==> r == Some(s)
  {
    if id.None? then None
    else match RedisUtils.GetBytes(st, ByteKey(cfg, id.value))
      case Err(_) => None
      case Ok(bytes) =>
        match SerializeUtils.Deserialize(codec, bytes)
        case Some(SessionObject(s)) => Some(s)
        case _ => None
  }

  datatype Created = Created(id: string, saved: Saved)

  /** `doCreate`: gives the session the generated id, saves it, and returns
      the id. */
  function DoCreate(cfg: Config, codec: SerializeUtils.ObjectCodec, st: Redis.Store,
                    session: Session, newId: string): (r: Created)
    requires ValidConfig(cfg)
    ensures r.id == newId
    ensures r.saved.session.Some? && r.saved.session.value.id == Some(newId)
    ensures r.saved.outcome.Ok? <==> Blob(codec, session.(id := Some(newId))).Some? && cfg.expire > 0
    ensures r.saved.outcome.Ok? ==> ByteKey(cfg, newId) in r.saved.store
    ensures r.saved.store - {ByteKey(cfg, newId)} == st - {ByteKey(cfg, newId)}
  {
    Created(newId, SaveSession(cfg, codec, st, Some(session.(id := Some(newId)))))
  }

  // getActiveSessions

  /** The pattern the scan sends to KEYS: the prefix and a `*`. */
  function ScanPattern(cfg: Config): (r: seq<byte>)
    ensures r == Utf8.Encode(cfg.keyPrefix) + [Glob.Star]
  {
    Utf8.EncodeAppend(cfg.keyPrefix, "*");
    RedisUtils.KeyBytes(cfg.keyPrefix + "*")
  }

  /** The keys the scan visits. */
  function ScannedKeys(cfg: Config, st: Redis.Store): (r: set<Redis.Key>)
    ensures forall k :: k in r <==> k in st && Glob.KeyMatches(ScanPattern(cfg), k)
  {
    RedisUtils.KeysMatching(st, cfg.keyPrefix + "*")
  }

  /** What `deserialize` makes of the entry at `k`, when it is text. */
  function Decoded(codec: SerializeUtils.ObjectCodec, st: Redis.Store, k: Redis.Key): Option<Obj>
    requires k in st && st[k].value.Text?
  {
    SerializeUtils.Deserialize(codec, Some(st[k].value.bytes))
  }

  predicate Foreign(codec: SerializeUtils.ObjectCodec, st: Redis.Store, k: Redis.Key)
    requires k in st
  {
    st[k].value.Text? && Decoded(codec, st, k).Some? && !Decoded(codec, st, k).value.SessionObject?
  }

  /** The entry at `k` as the scan adds it to the result: null when it does
      not decode. */
  function AsSession(codec: SerializeUtils.ObjectCodec, st: Redis.Store, k: Redis.Key): Option<Session>
    requires k in st && st[k].value.Text?
  {
    match Decoded(codec, st, k)
    case Some(SessionObject(s)) => Some(s)
    case _ => None
  }

  /** `getActiveSessions`: every key the prefix scan finds, read and
      deserialized, collected in a set (null included). A list under such
      a key makes GET fail, and an object that is not a session makes the
      cast fail; both escape. (When both could happen the order of the
      hash set decides which comes first; the model reports WRONGTYPE.) */
  function GetActiveSessions(cfg: Config, codec: SerializeUtils.ObjectCodec, st: Redis.Store):
    (r: Result<set<Option<Session>>>)
    ensures ScannedKeys(cfg, st) == {} ==> r == Ok({})
    ensures r == Err(WrongType) <==> exists k :: k in ScannedKeys(cfg, st) && st[k].value.List?
    ensures r == Err(ClassCast) <==>
              && (forall k :: k in ScannedKeys(cfg, st) ==> st[k].value.Text?)
              && (exists k :: k in ScannedKeys(cfg, st) && Foreign(codec, st, k))
    ensures r.Ok? ==> forall k :: k in ScannedKeys(cfg, st) ==> !Foreign(codec, st, k)
    ensures r.Err? ==> r == Err(WrongType) || r == Err(ClassCast)
    ensures r.Ok? ==> forall k :: k in ScannedKeys(cfg, st) ==> st[k].value.Text? && AsSession(codec, st, k) in r.value
    ensures r.Ok? ==> forall x :: x in r.value ==> exists k :: k in ScannedKeys(cfg, st) && st[k].value.Text? && x == AsSession(codec, st, k)
  {
    var keys := ScannedKeys(cfg, st);
    if exists k :: k in keys && st[k].value.List? then Err(WrongType)
    else if exists k :: k in keys && Foreign(codec, st, k) then Err(ClassCast)
    else
      var found := set k | k in keys :: AsSession(codec, st, k);
      assert keys == {} ==> found == {};
      Ok(found)
  }

  // Properties across operations

  /** A session saved with a positive expiry reads back as it was when it
      was saved, before the save changed its timeout. */
  lemma SaveThenRead(cfg: Config, codec: SerializeUtils.ObjectCodec, st: Redis.Store, s: Session)
    requires ValidConfig(cfg) && cfg.expire > 0 && SerializeUtils.Lawful(codec)
    requires s.id.Some? && codec.write(SessionObject(s)).Some?
    ensures var saved := SaveSession(cfg, codec, st, Some(s));
            && saved.outcome.Ok?
            && DoReadSession(cfg, codec, saved.store, s.id) == Some(s)
  {
    SerializeUtils.SerializeRoundTrip(codec, SessionObject(s), None);
  }

  /** Saving one session does not change what any other id reads. */
  lemma SaveKeepsOthers(cfg: Config, codec: SerializeUtils.ObjectCodec, st: Redis.Store, s: Session, other: string)
    requires ValidConfig(cfg) && s.id.Some? && s.id.value != other
    ensures DoReadSession(cfg, codec, SaveSession(cfg, codec, st, Some(s)).store, Some(other))
            == DoReadSession(cfg, codec, st, Some(other))
  {
    SaveKeepsOtherEntries(cfg, codec, st, s, other);
  }

  /** Saving one session leaves the entry of every other id as it was,
      present or absent. */
  lemma SaveKeepsOtherEntries(cfg: Config, codec: SerializeUtils.ObjectCodec, st: Redis.Store, s: Session, other: string)
    requires ValidConfig(cfg) && s.id.Some? && s.id.value != other
    ensures var k := ByteKey(cfg, other);
            var saved := SaveSession(cfg, codec, st, Some(s)).store;
            && (k in saved <==> k in st)
            && (k in st ==> saved[k] == st[k])
  {
    ByteKeyInjective(cfg, s.id.value, other);
  }

  /** A session deleted is still there to read. */
  lemma DeleteThenRead(cfg: Config, codec: SerializeUtils.ObjectCodec, st: Redis.Store,
                       s: Option<Session>, id: Option<string>)
    ensures DoReadSession(cfg, codec, Delete(cfg, st, s), id) == DoReadSession(cfg, codec, st, id)
  {
  }

  /** A created session reads back under the id `doCreate` returned. */
  lemma CreateThenRead(cfg: Config, codec: SerializeUtils.ObjectCodec, st: Redis.Store, s: Session, newId: string)
    requires ValidConfig(cfg) && cfg.expire > 0 && SerializeUtils.Lawful(codec)
    requires codec.write(SessionObject(s.(id := Some(newId)))).Some?
    ensures var c := DoCreate(cfg, codec, st, s, newId);
            DoReadSession(cfg, codec, c.saved.store, Some(c.id)) == Some(s.(id := Some(newId)))
  {
    SaveThenRead(cfg, codec, st, s.(id := Some(newId)));
  }

  /** A saved session's entry is gone once `expire` seconds have passed,
      and still readable before. */
  lemma SessionExpires(cfg: Config, codec: SerializeUtils.ObjectCodec, st: Redis.Store, s: Session, dt: nat)
    requires ValidConfig(cfg) && cfg.expire > 0 && SerializeUtils.Lawful(codec)
    requires s.id.Some? && codec.write(SessionObject(s)).Some?
    ensures var later := Redis.Tick(SaveSession(cfg, codec, st, Some(s)).store, dt);
            DoReadSession(cfg, codec, later, s.id) == if dt < cfg.expire then Some(s) else None
  {
    var saved := SaveSession(cfg, codec, st, Some(s)).store;
    var k := ByteKey(cfg, s.id.value);
    SerializeUtils.SerializeRoundTrip(codec, SessionObject(s), None);
    assert Redis.Age(saved[k], dt).Some? <==> dt < cfg.expire;
  }

  /** With a literal prefix, the scan finds exactly the keys that start
      with the prefix. */
  lemma ScanFindsPrefixed(cfg: Config, st: Redis.Store, k: Redis.Key)
    requires Glob.NoMeta(Utf8.Encode(cfg.keyPrefix))
    ensures k in ScannedKeys(cfg, st) <==> k in st && IsPrefix(Utf8.Encode(cfg.keyPrefix), k)
  {
    Glob.PrefixScan(Utf8.Encode(cfg.keyPrefix), k);
  }

  /** With a literal prefix, there are no active sessions exactly when no key
      starts with the prefix. */
  lemma NoActiveSessions(cfg: Config, codec: SerializeUtils.ObjectCodec, st: Redis.Store)
    requires Glob.NoMeta(Utf8.Encode(cfg.keyPrefix))
    ensures GetActiveSessions(cfg, codec, st) == Ok({}) <==>
              forall k :: k in st ==> !IsPrefix(Utf8.Encode(cfg.keyPrefix), k)
  {
    var r := GetActiveSessions(cfg, codec, st);
    if exists k :: k in st && IsPrefix(Utf8.Encode(cfg.keyPrefix), k) {
      var k :| k in st && IsPrefix(Utf8.Encode(cfg.keyPrefix), k);
      ScanFindsPrefixed(cfg, st, k);
      if r.Ok? {
        assert AsSession(codec, st, k) in r.value;
      }
    } else {
      forall k | k in st
        ensures k !in ScannedKeys(cfg, st)
      {
        ScanFindsPrefixed(cfg, st, k);
      }
      assert ScannedKeys(cfg, st) == {};
    }
  }

  /** A session just saved is among the active sessions, whenever the scan
      succeeds. */
  lemma SavedIsActive(cfg: Config, codec: SerializeUtils.ObjectCodec, st: Redis.Store, s: Session)
    requires ValidConfig(cfg) && cfg.expire > 0 && SerializeUtils.Lawful(codec)
    requires Glob.NoMeta(Utf8.Encode(cfg.keyPrefix))
    requires s.id.Some? && codec.write(SessionObject(s)).Some?
    ensures var saved := SaveSession(cfg, codec, st, Some(s)).store;
            var active := GetActiveSessions(cfg, codec, saved);
            active.Ok? ==> Some(s) in active.value
  {
    var saved := SaveSession(cfg, codec, st, Some(s)).store;
    var k := ByteKey(cfg, s.id.value);
    ScanFindsPrefixed(cfg, saved, k);
    SerializeUtils.SerializeRoundTrip(codec, SessionObject(s), None);
    assert AsSession(codec, saved, k) == Some(s);
  }

  /** An entry under the prefix that does not decode shows up as a null
      in the active sessions. */
  lemma UndecodableIsNull(cfg: Config, codec: SerializeUtils.ObjectCodec, st: Redis.Store, k: Redis.Key)
    requires k in ScannedKeys(cfg, st) && st[k].value.Text?
    requires SerializeUtils.Deserialize(codec, Some(st[k].value.bytes)).None?
    requires GetActiveSessions(cfg, codec, st).Ok?
    ensures None in GetActiveSessions(cfg, codec, st).value
  {
    assert AsSession(codec, st, k) == None;
  }

  /** The default prefix has no glob metacharacter, so the default scan is
      an exact prefix scan. */
  lemma DefaultPrefixIsLiteral()
    ensures Glob.NoMeta(Utf8.Encode(DefaultKeyPrefix))
  {
    LiteralPrefix(DefaultKeyPrefix);
  }

  /** A prefix of ASCII characters other than `*`, `?`, `[` and `\` is
      literal to the glob matcher. */
  lemma {:induction false} LiteralPrefix(s: string)
    requires forall i :: 0 <= i < |s| ==> s[i] < 128 as char && s[i] !in "*?[\\"
    ensures Glob.NoMeta(Utf8.Encode(s))
  {
    if |s| > 0 {
      LiteralPrefix(s[1..]);
      assert Utf8.Encode(s) == Utf8.EncodeChar(s[0]) + Utf8.Encode(s[1..]);
      assert Utf8.EncodeChar(s[0]) == [s[0] as int];
    }
  }
}

=== FILE: store.dfy ===
/** The cache both the session store and the helpers talk to: a Redis
    database seen as an immutable map from byte-string keys to entries, each
    a text or list value with an optional time to live in seconds.

    Every command is a pure transition: it returns its reply together with
    the store it leaves behind, or a `Failure` when Redis answers with an
    error (and then the store is unchanged). Time passes only through
    `Tick`. */
module Redis {
  import opened Outcomes
  import Decimal
  import Glob
  import Lists

  type Key = seq<byte>

  datatype Value = Text(bytes: seq<byte>) | List(items: seq<seq<byte>>)

  datatype Ttl = Persistent | ExpiresIn(seconds: nat)

  datatype Entry = Entry(value: Value, ttl: Ttl)

  type Store = map<Key, Entry>

  /** A command's answer and the store after it. */
  datatype Reply<+T> = Reply(answer: T, store: Store)

  /** Redis never keeps an empty list, and an entry whose time is up is gone. */
  ghost predicate WfEntry(e: Entry) {
    && (e.value.List? ==> |e.value.items| > 0)
    && (e.ttl.ExpiresIn? ==> e.ttl.seconds > 0)
  }

  ghost predicate Wf(st: Store) {
    forall k :: k in st ==> WfEntry(st[k])
  }

  /** The most negative signed 64-bit integer, which DECRBY cannot negate. */
  const MinInt64: int := -0x8000_0000_0000_0000

  /** GET: the text at `k`, `None` when absent; a list is a type error. */
  function Get(st: Store, k: Key): (r: Result<Option<seq<byte>>>)
    ensures k !in st ==> r == Ok(None)
    ensures r == Err(WrongType) <==> k in st && st[k].value.List?
    ensures r.Ok? && r.value.Some? ==> k in st && st[k].value == Text(r.value.value)
    ensures k in st && st[k].value.Text? ==> r == Ok(Some(st[k].value.bytes))
  {
    if k !in st then Ok(None)
    else match st[k].value
      case Text(b) => Ok(Some(b))
      case List(_) => Err(WrongType)
  }

  /** SET: overwrites whatever `k` held and drops its time to live. */
  function Set(st: Store, k: Key, v: seq<byte>): (r: Store)
    ensures k in r && r[k] == Entry(Text(v), Persistent)
    ensures r - {k} == st - {k}
    ensures Wf(st) ==> Wf(r)
  {
    st[k := Entry(Text(v), Persistent)]
  }

  /** SETEX: SET with a time to live; Redis refuses a non-positive one. */
  function SetEx(st: Store, k: Key, seconds: int, v: seq<byte>): (r: Result<Store>)
    ensures r.Err? <==> seconds <= 0
    ensures r.Err? ==> r.failure == InvalidExpireTime
    ensures r.Ok? ==> k in r.value && r.value[k] == Entry(Text(v), ExpiresIn(seconds))
    ensures r.Ok? ==> r.value - {k} == st - {k}
    ensures r.Ok? && Wf(st) ==> Wf(r.value)
  {
    if seconds <= 0 then Err(InvalidExpireTime)
    else Ok(st[k := Entry(Text(v), ExpiresIn(seconds))])
  }

  /** SETNX: writes `v` only when `k` is absent; answers whether it wrote. */
  function SetNx(st: Store, k: Key, v: seq<byte>): (r: Reply<bool>)
    ensures r.answer <==> k !in st
    ensures r.answer ==> r.store == st[k := Entry(Text(v), Persistent)]
    ensures !r.answer ==> r.store == st
    ensures Wf(st) ==> Wf(r.store)
  {
    if k in st then Reply(false, st) else Reply(true, st[k := Entry(Text(v), Persistent)])
  }

  /** EXPIRE: sets the time to live of an existing key; a non-positive time
      deletes the key at once. Answers whether the key existed. */
  function Expire(st: Store, k: Key, seconds: int): (r: Reply<bool>)
    ensures r.answer <==> k in st
    ensures k !in st ==> r.store == st
    ensures k in st && seconds <= 0 ==> r.store == st - {k}
    ensures k in st && seconds > 0 ==> r.store == st[k := st[k].(ttl := ExpiresIn(seconds))]
    ensures Wf(st) ==> Wf(r.store)
  {
    if k !in st then Reply(false, st)
    else if seconds <= 0 then Reply(true, st - {k})
    else Reply(true, st[k := st[k].(ttl := ExpiresIn(seconds))])
  }

  /** TTL: -2 for a missing key, -1 for one without expiry, else seconds left. */
  function TtlOf(st: Store, k: Key): (r: int)
    ensures r == -2 <==> k !in st
    ensures r == -1 <==> k in st && st[k].ttl == Persistent
    ensures r >= 0 ==> k in st && st[k].ttl == ExpiresIn(r)
  {
    if k !in st then -2
    else match st[k].ttl
      case Persistent => -1
      case ExpiresIn(n) => n
  }

  function Exists(st: Store, k: Key): (r: bool)
    ensures r <==> k in st
  {
    k in st
  }

  /** DEL: removes the key; answers how many keys went (0 or 1). */
  function Del(st: Store, k: Key): (r: Reply<int>)
    ensures k !in r.store && r.store == st - {k}
    ensures r.answer == (if k in st then 1 else 0)
    ensures Wf(st) ==> Wf(r.store)
  {
    Reply(if k in st then 1 else 0, st - {k})
  }

  /** KEYS: every live key the glob pattern matches. */
  function Keys(st: Store, pattern: seq<byte>): (r: set<Key>)
    ensures forall k :: k in r <==> k in st && Glob.KeyMatches(pattern, k)
  {
    set k | k in st && Glob.KeyMatches(pattern, k)
  }

  /** INCRBY: adds `delta` to the counter at `k` (0 when absent) and answers
      the new value. The stored text must parse as a signed 64-bit integer
      and the sum must stay in range. The time to live is kept. */
  function IncrBy(st: Store, k: Key, delta: int): (r: Result<Reply<int>>)
    ensures k in st && st[k].value.List? ==> r == Err(WrongType)
    ensures k in st && st[k].value.Text? && Decimal.Parse(st[k].value.bytes).None? ==> r == Err(NotAnInteger)
    ensures !(k in st && st[k].value.List?) && (k in st ==> Decimal.Parse(st[k].value.bytes).Some?) ==>
              var prior := if k in st then Decimal.Parse(st[k].value.bytes).value else 0;
              && (r.Ok? <==> InInt64(prior + delta))
              && (!InInt64(prior + delta) ==> r == Err(IncrementOverflow))
    ensures r.Ok? ==> InInt64(r.value.answer)
    ensures r.Ok? ==> var prior := if k in st then Decimal.Parse(st[k].value.bytes).value else 0;
                      r.value.answer == prior + delta
    ensures r.Ok? ==> k in r.value.store && r.value.store[k].value == Text(Decimal.Format(r.value.answer))
    ensures r.Ok? ==> r.value.store[k].ttl == (if k in st then st[k].ttl else Persistent)
    ensures r.Ok? ==> r.value.store - {k} == st - {k}
    ensures r.Ok? && Wf(st) ==> Wf(r.value.store)
  {
    if k in st && st[k].value.List? then Err(WrongType)
    else
      var current := if k in st then Decimal.Parse(st[k].value.bytes) else Some(0);
      match current
      case None => Err(NotAnInteger)
      case Some(n) =>
        if !InInt64(n + delta) then Err(IncrementOverflow)
        else
          var ttl := if k in st then st[k].ttl else Persistent;
          Ok(Reply(n + delta, st[k := Entry(Text(Decimal.Format(n + delta)), ttl)]))
  }

  /** DECRBY: INCRBY by `-delta`; the most negative 64-bit delta is refused
      because its negation overflows. */
  function DecrBy(st: Store, k: Key, delta: int): (r: Result<Reply<int>>)
    ensures delta == MinInt64 ==> r == Err(IncrementOverflow)
    ensures delta != MinInt64 ==> r == IncrBy(st, k, -delta)
  {
    if delta == MinInt64 then Err(IncrementOverflow) else IncrBy(st, k, -delta)
  }

  /** RPUSH: appends `vs` to the list at `k` (created when absent) and
      answers the new length. */
  function RPush(st: Store, k: Key, vs: seq<seq<byte>>): (r: Result<Reply<int>>)
    ensures |vs| == 0 ==> r == Err(WrongArity)
    ensures |vs| > 0 && k in st && st[k].value.Text? ==> r == Err(WrongType)
    ensures r.Ok? <==> |vs| > 0 && !(k in st && st[k].value.Text?)
    ensures r.Ok? ==> var before := if k in st then st[k].value.items else [];
                      && k in r.value.store
                      && r.value.store[k].value == List(before + vs)
                      && r.value.answer == |before| + |vs|
    ensures r.Ok? ==> r.value.store[k].ttl == (if k in st then st[k].ttl else Persistent)
    ensures r.Ok? ==> r.value.store - {k} == st - {k}
    ensures r.Ok? && Wf(st) ==> Wf(r.value.store)
  {
    if |vs| == 0 then Err(WrongArity)
    else if k in st && st[k].value.Text? then Err(WrongType)
    else
      var before := if k in st then st[k].value.items else [];
      var ttl := if k in st then st[k].ttl else Persistent;
      Ok(Reply(|before| + |vs|, st[k := Entry(List(before + vs), ttl)]))
  }

  /** LRANGE: the inclusive slice of the list at `k`; a missing key reads
      as the empty list. */
  function LRange(st: Store, k: Key, start: int, end: int): (r: Result<seq<seq<byte>>>)
    ensures k !in st ==> r == Ok([])
    ensures r == Err(WrongType) <==> k in st && st[k].value.Text?
    ensures r.Ok? <==> !(k in st && st[k].value.Text?)
    ensures r.Ok? && k in st ==> r.value == Lists.LRangeSlice(st[k].value.items, start, end)
  {
    if k !in st then Ok([])
    else match st[k].value
      case Text(_) => Err(WrongType)
      case List(items) => Ok(Lists.LRangeSlice(items, start, end))
  }

  /** The list at `k`, with a missing key read as the empty list. */
  function ListAt(st: Store, k: Key): seq<seq<byte>> {
    if k in st && st[k].value.List? then st[k].value.items else []
  }

  /** LREM: removes occurrences of `v` as `Lists.LRemList` describes and
      answers how many went; a list left empty is deleted. */
  function LRem(st: Store, k: Key, count: int, v: seq<byte>): (r: Result<Reply<int>>)
    ensures k !in st ==> r == Ok(Reply(0, st))
    ensures r == Err(WrongType) <==> k in st && st[k].value.Text?
    ensures r.Ok? <==> !(k in st && st[k].value.Text?)
    ensures r.Ok? && k in st ==>
              var kept := Lists.LRemList(st[k].value.items, v, count);
              && r.value.answer == |st[k].value.items| - |kept|
              && (|kept| == 0 ==> r.value.store == st - {k})
              && (|kept| > 0 ==> r.value.store == st[k := st[k].(value := List(kept))])
    ensures r.Ok? ==> ListAt(r.value.store, k) == Lists.LRemList(ListAt(st, k), v, count)
    ensures r.Ok? && Wf(st) ==> Wf(r.value.store)
  {
    if k !in st then Ok(Reply(0, st))
    else match st[k].value
      case Text(_) => Err(WrongType)
      case List(items) =>
        var kept := Lists.LRemList(items, v, count);
        var store := if |kept| == 0 then st - {k} else st[k := st[k].(value := List(kept))];
        Ok(Reply(|items| - |kept|, store))
  }

  /** An entry after `dt` more seconds, if it is still alive. */
  function Age(e: Entry, dt: nat): Option<Entry> {
    match e.ttl
    case Persistent => Some(e)
    case ExpiresIn(n) => if n <= dt then None else Some(e.(ttl := ExpiresIn(n - dt)))
  }

  /** `dt` seconds pass: entries whose time runs out vanish, the others
      count down. */
  function Tick(st: Store, dt: nat): (r: Store)
    ensures forall k :: k in r <==> k in st && Age(st[k], dt).Some?
    ensures forall k :: k in r ==> r[k] == Age(st[k], dt).value
    ensures Wf(st) ==> Wf(r)
  {
    map k | k in st && Age(st[k], dt).Some? :: Age(st[k], dt).value
  }
}

=== FILE: utf8.dfy ===
/** UTF-8, the text encoding every key and text value goes through on its
    way to Redis (`String.getBytes(UTF_8)` in the session store and Jedis'
    `SafeEncoder.encode` in the helpers), following the well-formed byte
    sequence table of section 4 of RFC 3629.

    A Dafny `char` is a Unicode scalar value, so the strings here are exactly
    the Java strings without unpaired surrogates. For them the encoding is a
    bijection onto the well-formed byte sequences: `DecodeEncode` and
    `EncodeDecode` prove both directions. */
module Utf8 {
  import opened Outcomes

  predicate IsContinuation(b: byte) {
    0x80 <= b < 0xC0
  }

  /** The bytes of one scalar value: 1 to 4 bytes by magnitude. */
  function EncodeChar(c: char): (r: seq<byte>)
    ensures 1 <= |r| <= 4
    ensures r[0] < 0x80 <==> |r| == 1
    ensures forall i :: 1 <= i < |r| ==> IsContinuation(r[i])
  {
    var n := c as int;
    if n < 0x80 then [n]
    else if n < 0x800 then [0xC0 + n / 64, 0x80 + n % 64]
    else if n < 0x1_0000 then [0xE0 + n / 4096, 0x80 + (n / 64) % 64, 0x80 + n % 64]
    else [0xF0 + n / 262144, 0x80 + (n / 4096) % 64, 0x80 + (n / 64) % 64, 0x80 + n % 64]
  }

  function Encode(s: string): (r: seq<byte>)
    ensures |s| <= |r| <= 4 * |s|
  {
    if |s| == 0 then [] else EncodeChar(s[0]) + Encode(s[1..])
  }

  /** Second byte of a three-byte sequence: excludes overlong forms after
      0xE0 and the surrogate block after 0xED. */
  predicate SecondOfThree(b0: byte, b1: byte) {
    if b0 == 0xE0 then 0xA0 <= b1 < 0xC0
    else if b0 == 0xED then 0x80 <= b1 < 0xA0
    else IsContinuation(b1)
  }

  /** Second byte of a four-byte sequence: excludes overlong forms after
      0xF0 and values above U+10FFFF after 0xF4. */
  predicate SecondOfFour(b0: byte, b1: byte) {
    if b0 == 0xF0 then 0x90 <= b1 < 0xC0
    else if b0 == 0xF4 then 0x80 <= b1 < 0x90
    else IsContinuation(b1)
  }

  /** The scalar value at the head of `b` and the number of bytes it takes,
      or `None` when the head is not a well-formed sequence. */
  function DecodeFirst(b: seq<byte>): (r: Option<(char, nat)>)
    requires |b| > 0
    ensures r.Some? ==> 1 <= r.value.1 <= |b| && r.value.1 <= 4
  {
    var b0: int := b[0];
    if b0 < 0x80 then Some((b0 as char, 1))
    else if 0xC2 <= b0 < 0xE0 then
      if |b| >= 2 && IsContinuation(b[1]) then
        Some((((b0 - 0xC0) * 64 + (b[1] as int - 0x80)) as char, 2))
      else None
    else if 0xE0 <= b0 < 0xF0 then
      if |b| >= 3 && SecondOfThree(b0, b[1]) && IsContinuation(b[2]) then
        var n := (b0 - 0xE0) * 4096 + (b[1] as int - 0x80) * 64 + (b[2] as int - 0x80);
        assert 0x800 <= n < 0xD800 || 0xE000 <= n < 0x1_0000;
        Some((n as char, 3))
      else None
    else if 0xF0 <= b0 < 0xF5 then
      if |b| >= 4 && SecondOfFour(b0, b[1]) && IsContinuation(b[2]) && IsContinuation(b[3]) then
        var n := (b0 - 0xF0) * 262144 + (b[1] as int - 0x80) * 4096 + (b[2] as int - 0x80) * 64 + (b[3] as int - 0x80);
        assert 0x1_0000 <= n < 0x11_0000;
        Some((n as char, 4))
      else None
    else None
  }

  /** Strict decoding: `None` unless the whole of `b` is well-formed. */
  function Decode(b: seq<byte>): Option<string>
    decreases |b|
  {
    if |b| == 0 then Some([])
    else match DecodeFirst(b)
      case None => None
      case Some((c, n)) =>
        match Decode(b[n..])
        case None => None
        case Some(rest) => Some([c] + rest)
  }

  lemma {:induction false} EncodeAppend(a: string, b: string)
    ensures Encode(a + b) == Encode(a) + Encode(b)
  {
    if |a| > 0 {
      var ab := a + b;
      assert ab[0] == a[0] && ab[1..] == a[1..] + b;
      EncodeAppend(a[1..], b);
      assert Encode(ab) == EncodeChar(a[0]) + Encode(a[1..] + b);
    } else {
      assert a + b == b;
    }
  }

  lemma DecodeFirstOfTwo(n: int, rest: seq<byte>)
    requires 0x80 <= n < 0x800
    ensures var e: seq<byte> := [0xC0 + n / 64, 0x80 + n % 64];
            DecodeFirst(e + rest) == Some((n as char, 2))
  {
    var e: seq<byte> := [0xC0 + n / 64, 0x80 + n % 64];
    assert (e + rest)[0] == e[0] && (e + rest)[1] == e[1];
    assert (n / 64) * 64 + n % 64 == n;
  }

  lemma DecodeFirstOfThree(n: int, rest: seq<byte>)
    requires 0x800 <= n < 0xD800 || 0xE000 <= n < 0x1_0000
    ensures var e: seq<byte> := [0xE0 + n / 4096, 0x80 + (n / 64) % 64, 0x80 + n % 64];
            DecodeFirst(e + rest) == Some((n as char, 3))
  {
    var e: seq<byte> := [0xE0 + n / 4096, 0x80 + (n / 64) % 64, 0x80 + n % 64];
    assert (e + rest)[..3] == e;
    var q := n / 64;
    assert n == q * 64 + n % 64;
    assert q == (q / 64) * 64 + q % 64;
    assert n / 4096 == q / 64;
    assert n / 4096 == 0 ==> q >= 32 && q % 64 == q;
    assert n / 4096 == 13 ==> q < 0x360 && q % 64 < 32;
    assert (n / 4096) * 4096 + ((n / 64) % 64) * 64 + n % 64 == n;
  }

  lemma DecodeFirstOfFour(n: int, rest: seq<byte>)
    requires 0x1_0000 <= n < 0x11_0000
    ensures var e: seq<byte> := [0xF0 + n / 262144, 0x80 + (n / 4096) % 64, 0x80 + (n / 64) % 64, 0x80 + n % 64];
            DecodeFirst(e + rest) == Some((n as char, 4))
  {
    var e: seq<byte> := [0xF0 + n / 262144, 0x80 + (n / 4096) % 64, 0x80 + (n / 64) % 64, 0x80 + n % 64];
    assert (e + rest)[..4] == e;
    var q := n / 64;
    var p := q / 64;
    assert n == q * 64 + n % 64;
    assert q == p * 64 + q % 64;
    assert p == (p / 64) * 64 + p % 64;
    assert n / 4096 == p;
    assert n / 262144 == p / 64;
    assert n / 262144 == 0 ==> p >= 16 && p % 64 == p;
    assert n / 262144 == 4 ==> p < 0x110 && p % 64 < 16;
    assert (n / 262144) * 262144 + ((n / 4096) % 64) * 4096 + ((n / 64) % 64) * 64 + n % 64 == n;
  }

  /** Decoding the encoding of `c`, followed by anything, yields `c` and
      consumes exactly its encoding. */
  lemma DecodeFirstOfEncoded(c: char, rest: seq<byte>)
    ensures DecodeFirst(EncodeChar(c) + rest) == Some((c, |EncodeChar(c)|))
  {
    var n := c as int;
    if n < 0x80 {
      assert (EncodeChar(c) + rest)[0] == n;
    } else if n < 0x800 {
      DecodeFirstOfTwo(n, rest);
    } else if n < 0x1_0000 {
      DecodeFirstOfThree(n, rest);
    } else {
      DecodeFirstOfFour(n, rest);
    }
  }

  /** Round trip: the strict decoder inverts the encoder. */
  lemma {:induction false} DecodeEncode(s: string)
    ensures Decode(Encode(s)) == Some(s)
  {
    if |s| > 0 {
      var e := EncodeChar(s[0]);
      var b := Encode(s);
      assert b == e + Encode(s[1..]);
      DecodeFirstOfEncoded(s[0], Encode(s[1..]));
      assert b[|e|..] == Encode(s[1..]);
      DecodeEncode(s[1..]);
      assert [s[0]] + s[1..] == s;
    }
  }

  lemma SplitSixBits(a: int, r: int)
    requires 0 <= r < 64
    ensures (a * 64 + r) / 64 == a && (a * 64 + r) % 64 == r
  {
  }

  lemma EncodeOfThree(b0: int, b1: int, b2: int)
    requires 0xE0 <= b0 < 0xF0 && 0x80 <= b1 < 0xC0 && 0x80 <= b2 < 0xC0
    ensures var n := (b0 - 0xE0) * 4096 + (b1 - 0x80) * 64 + (b2 - 0x80);
            n / 4096 == b0 - 0xE0 && (n / 64) % 64 == b1 - 0x80 && n % 64 == b2 - 0x80
  {
    var q := (b0 - 0xE0) * 64 + (b1 - 0x80);
    SplitSixBits(q, b2 - 0x80);
    SplitSixBits(b0 - 0xE0, b1 - 0x80);
    var n := (b0 - 0xE0) * 4096 + (b1 - 0x80) * 64 + (b2 - 0x80);
    assert n == q * 64 + (b2 - 0x80);
    assert n / 4096 == q / 64;
  }

  lemma EncodeOfFour(b0: int, b1: int, b2: int, b3: int)
    requires 0xF0 <= b0 < 0xF5 && 0x80 <= b1 < 0xC0 && 0x80 <= b2 < 0xC0 && 0x80 <= b3 < 0xC0
    ensures var n := (b0 - 0xF0) * 262144 + (b1 - 0x80) * 4096 + (b2 - 0x80) * 64 + (b3 - 0x80);
            && n / 262144 == b0 - 0xF0 && (n / 4096) % 64 == b1 - 0x80
            && (n / 64) % 64 == b2 - 0x80 && n % 64 == b3 - 0x80
  {
    var p := (b0 - 0xF0) * 64 + (b1 - 0x80);
    var q := p * 64 + (b2 - 0x80);
    var n := (b0 - 0xF0) * 262144 + (b1 - 0x80) * 4096 + (b2 - 0x80) * 64 + (b3 - 0x80);
    assert n == q * 64 + (b3 - 0x80);
    SplitSixBits(q, b3 - 0x80);
    SplitSixBits(p, b2 - 0x80);
    SplitSixBits(b0 - 0xF0, b1 - 0x80);
    assert n / 4096 == p;
    assert n / 262144 == p / 64;
  }

  /** A well-formed head sequence is the encoding of the value it decodes to. */
  lemma EncodeOfDecodeFirst(b: seq<byte>)
    requires |b| > 0 && DecodeFirst(b).Some?
    ensures b[..DecodeFirst(b).value.1] == EncodeChar(DecodeFirst(b).value.0)
  {
    var b0: int := b[0];
    if 0xC2 <= b0 < 0xE0 {
      var n := (b0 - 0xC0) * 64 + (b[1] as int - 0x80);
      assert DecodeFirst(b) == Some((n as char, 2));
      SplitSixBits(b0 - 0xC0, b[1] as int - 0x80);
      assert EncodeChar(n as char) == [b[0], b[1]];
      assert b[..2] == [b[0], b[1]];
    } else if 0xE0 <= b0 < 0xF0 {
      var n := (b0 - 0xE0) * 4096 + (b[1] as int - 0x80) * 64 + (b[2] as int - 0x80);
      assert DecodeFirst(b) == Some((n as char, 3));
      EncodeCharOfThree(b[0], b[1], b[2]);
      assert b[..3] == [b[0], b[1], b[2]];
    } else if 0xF0 <= b0 < 0xF5 {
      var n := (b0 - 0xF0) * 262144 + (b[1] as int - 0x80) * 4096 + (b[2] as int - 0x80) * 64 + (b[3] as int - 0x80);
      assert DecodeFirst(b) == Some((n as char, 4));
      EncodeCharOfFour(b[0], b[1], b[2], b[3]);
      assert b[..4] == [b[0], b[1], b[2], b[3]];
    }
  }

  lemma EncodeCharOfThree(b0: byte, b1: byte, b2: byte)
    requires 0xE0 <= b0 < 0xF0 && SecondOfThree(b0, b1) && IsContinuation(b2)
    ensures var n := (b0 - 0xE0) * 4096 + (b1 - 0x80) * 64 + (b2 - 0x80);
            && (0x800 <= n < 0xD800 || 0xE000 <= n < 0x1_0000)
            && EncodeChar(n as char) == [b0, b1, b2]
  {
    EncodeOfThree(b0, b1, b2);
  }

  lemma EncodeCharOfFour(b0: byte, b1: byte, b2: byte, b3: byte)
    requires 0xF0 <= b0 < 0xF5 && SecondOfFour(b0, b1) && IsContinuation(b2) && IsContinuation(b3)
    ensures var n := (b0 - 0xF0) * 262144 + (b1 - 0x80) * 4096 + (b2 - 0x80) * 64 + (b3 - 0x80);
            && 0x1_0000 <= n < 0x11_0000
            && EncodeChar(n as char) == [b0, b1, b2, b3]
  {
    EncodeOfFour(b0, b1, b2, b3);
  }

  /** Converse round trip: whatever the strict decoder accepts is the
      encoding of what it returns. */
  lemma {:induction false} EncodeDecode(b: seq<byte>)
    requires Decode(b).Some?
    ensures Encode(Decode(b).value) == b
    decreases |b|
  {
    if |b| > 0 {
      var c, n := DecodeStep(b);
      var tail := b[n..];
      var rest := Decode(tail).value;
      EncodeDecode(tail);
      EncodeCons(c, rest);
      assert b == b[..n] + tail;
    }
  }

  /** One step of the strict decoder: the head character, the bytes it
      took, and the decoding of what follows. */
  lemma DecodeStep(b: seq<byte>) returns (c: char, n: nat)
    requires |b| > 0 && Decode(b).Some?
    ensures 1 <= n <= |b|
    ensures b[..n] == EncodeChar(c)
    ensures Decode(b[n..]).Some? && Decode(b).value == [c] + Decode(b[n..]).value
  {
    var head := DecodeFirst(b).value;
    c, n := head.0, head.1;
    EncodeOfDecodeFirst(b);
  }

  lemma EncodeCons(c: char, rest: string)
    ensures Encode([c] + rest) == EncodeChar(c) + Encode(rest)
  {
    assert ([c] + rest)[1..] == rest;
  }

  /** Distinct strings never share an encoding. */
  lemma EncodeInjective(a: string, b: string)
    requires Encode(a) == Encode(b)
    ensures a == b
  {
    DecodeEncode(a);
    DecodeEncode(b);
  }
}
